=== FILE: README.md ===
# Filmzi file-to-link uploader, modelled in Dafny

The system turns a file sent to a Telegram bot into a permanent public link
of the form `<base>/<route>/<name>-<short id>`. This project models the part
that produces those links and the store behind them:

- the short-id generators (`random_id` / `randomId`) and the link and slug
  builders of `bot.py`, `api/webhook.py` and `api/webhook.js`, with the
  last-`-` split that the download handlers use to read a slug back;
- the bot's Redis mapping store (`save_to_redis` / `get_from_redis`) as two
  maps over the real key names `file:<id>` and `user:<uid>:files`;
- the three upload flows (`handle_media`, `do_POST`, `handler`) as pure
  functions from the message, the Bot API results and the store to the reply,
  the ordered list of outgoing calls and the new store;
- the bot's inline keyboard and its callback dispatcher, with owner gating
  and the revoke stub;
- `format_file_size` unit selection over exact reals.

Modules follow the program's pieces: `Text`, `Decimal`, `PercentEncoding`
and `Optional` hold the string machinery (Python `str.replace`, `split`,
`rsplit`, truthiness; `str()` of integers; `quote` and
`encodeURIComponent` per section 2.1 of RFC 3986); `ShortId`, `Links`,
`FileSize`, `RedisStore`, `Keyboard`, `BotMedia`, `BotCallback`,
`WebhookPy` and `WebhookJs` hold the modelled operations. Randomness is an
input: `PyDraw` is any value `randint(10000000, 99999999)` can return,
`UnitDraw` any value of `Math.random()`. Store calls, the bot's forward, and
every Bot API call of the two webhooks are input results (raised /
answered / rejected / failed). The bot's own replies and callback answers
are taken to be delivered: their failure paths are listed under "Left out".

Behaviour the model keeps as the code has it:

- The JavaScript handler never checks `ok` on the forward. Among forward
  answers that parse as JSON, only one without `result` fails (500). A
  `result` without `message_id` does not throw: the mapping is then sent as
  a reply to `undefined` (`WebhookJs.ReplyTarget`). A rejected fetch or a
  body that is not JSON also ends in 500, through the same `catch`.
- In `handle_media` a document without a file name is forwarded and saved.
  The handler then raises at `file_name.replace`, so the user gets the
  generic error while the record stays in Redis.
- A file whose size is missing raises at the size comparison, before any
  forward.
- The callback links use the raw stored name. A missing name is rendered as
  `None`. The upload reply uses the cleaned name (spaces become dots).
- `save_to_redis` writes the record before the index. A failing `SADD`
  leaves the record written but this user's set not updated, and `False` is
  returned.
- Ids are not checked for collisions. A repeated id overwrites the record,
  whoever saves it, and the earlier owner's set still lists it.
- Python's `file_obj.get('file_unique_id', ...)` wins even when empty. The
  `.jpg` suffix depends on the message having photos, not on which file was
  chosen.

## Model

| member | source | states |
|---|---|---|
| ShortId.PyShortId | bot.py:30-31 | the short id `str(random_id())` is exactly eight decimal digits, so it holds no `-` and no `\|`, and it reads back as the drawn number |
| ShortId.JsRandomId | api/webhook.js:6-8 | `floor(10000 + u*90000)` lies in [10000, 99999] for every `u` in [0, 1) |
| ShortId.JsShortId | api/webhook.js:6-8 | the JavaScript short id is exactly five digits with no `-` or `\|` |
| Decimal.ValueOfNatToString | api/webhook.py:116 | `str()` of a non-negative integer reads back as that integer, so distinct draws give distinct ids |
| Decimal.NatToStringLength | bot.py:200 | a number in [10^(k-1), 10^k) renders with exactly k digits |
| Decimal.NatToStringInjective | bot.py:200 | distinct numbers never render to the same id text |
| FileSize.ScaleFrom | bot.py:39-42 | the division loop keeps `amount * 1024^steps == input`, stops at TB, and leaves the amount below 1024 unless at TB and at least 1 once it has divided |
| FileSize.FormatFileSize | bot.py:33-44 | zero alone is "0 B"; otherwise the unit index is at most 4, amount times 1024^unit equals the size, the amount is below 1024 unless the unit is TB and at least 1 for positive sizes |
| FileSize.UnitIsUniqueFit | bot.py:38-42 | for a positive size the chosen unit is the only k <= 4 with 1024^k <= size < 1024^(k+1) (no upper bound at TB) |
| FileSize.ScaleBounds | bot.py:40-42 | an amount of at least 1 in unit k stands for at least 1024^k bytes, and an amount below 1024 for fewer than 1024^(k+1) |
| FileSize.ExampleGigabytes | bot.py:33-44 | 1572864000 bytes is 1.46484375 GB |
| RedisStore.SaveToRedis | bot.py:46-58 | `file:<id>` is overwritten unconditionally and the id is added to `user:<uid>:files`; no other key changes; the result is True exactly when no store call failed, and a failing `SADD` still leaves the record written |
| RedisStore.GetFromRedis | bot.py:60-70 | the stored record is returned exactly when the key exists and the store works; a missing key or a failing store gives None |
| RedisStore.SaveThenGet | bot.py:46-70 | after a healthy save, a healthy get of the id returns the saved record and the owner's set lists the id |
| RedisStore.SaveKeepsOtherRecords | bot.py:49-50 | saving under one id never changes what a get of another id returns |
| RedisStore.CollisionOverwrites | bot.py:49-54 | a second save under a taken id, by any user, replaces the record while the first owner's set still lists the id |
| RedisStore.SavePreservesIndexConsistency | bot.py:48-58 | no save, failed or not, leaves a user set listing an id that has no record |
| Keyboard.CreateFileKeyboard | bot.py:72-95 | three rows: [STREAM, DOWNLOAD] when streamable else [DOWNLOAD], then [SHARE, REVOKE], then [CLOSE]; every button carries the given id in `<action>_<id>` form, CLOSE carries `close` |
| Keyboard.ParseCallbackData | bot.py:291-355 | data is unknown exactly when it is not `close` and starts with none of the four prefixes; it is CLOSE exactly when it equals `close`; otherwise its action's prefix starts it and the id is the data with every copy of that prefix removed |
| Keyboard.DispatchByPrefix | bot.py:291-341 | data starting with a prefix is dispatched to that prefix's action, whatever follows, since no prefix starts another |
| Keyboard.ParseOwnData | bot.py:291-341 | `<action>_<digits>` is dispatched to that action with that id, despite the prefixes being tried in turn |
| Keyboard.KeyboardDataRoundTrip | bot.py:72-95 | every button of a keyboard built for a digit id is read back by the dispatcher as its own action and id |
| Keyboard.EveryPrefixCopyRemoved | bot.py:291-292 | data holding the prefix twice, with digits after each copy, is read as that action with the two digit runs joined, since `replace` deletes every copy |
| Links.IdAfterLastDash | bot.py:244-245 | any `<head>-<id>` whose id has no `-` splits at its last `-` into exactly head and id |
| Links.BotCleanName | bot.py:243 | the cleaned name keeps its length, turns every space into a dot, and keeps every other character in place |
| Links.BotLink | bot.py:244-245 | the bot's download/stream link starts with `<BASE_URL>/api/<route>/` and its last-`-` split yields the short id |
| Links.ShareLink | bot.py:246 | the share link is `https://t.me/<token part before the first colon>?start=file_` followed by exactly the short id |
| Links.WebhookCleanName | api/webhook.py:146 | the cleaned name has no space or parenthesis, and keeps every other character, with `_` added only for spaces |
| Links.WebhookDomain | api/webhook.py:141-143 | the domain always starts with `http`, and `https://` is prepended exactly when the configured value does not start with `http` |
| Links.WebhookDownloadLink | api/webhook.py:146-148 | the encoded segment holds only URL-safe characters and the link's last-`-` split yields the short id |
| Links.JsDownloadLink | api/webhook.js:64-65 | the `encodeURIComponent` segment holds only URL-safe characters and the `/dl/` link's last-`-` split yields the short id |
| PercentEncoding.Encode | api/webhook.py:147 | the encoder's output holds only unreserved characters, `%` and hex digits, and a name made only of unreserved characters is left unchanged |
| PercentEncoding.DecodeEncode | api/webhook.js:65 | percent-decoding the encoded text gives back exactly the UTF-8 bytes of the name, for both encoders |
| Text.RemoveAllOfJoin | bot.py:292 | `p.join(xs).replace(p, '')` is `''.join(xs)` whenever no piece contains the first character of `p` |
| Text.RemoveAllSkips | bot.py:292 | text that cannot start a copy of the pattern passes through `replace` unchanged and matching resumes after it |
| Text.DeleteCharAppend | api/webhook.py:146 | deleting a character with `replace(c, '')` distributes over concatenation, so order and multiplicity of the other characters are kept |
| Text.SplitLast | bot.py:244-245 | the `rsplit('-', 1)` that the download and stream handlers apply (line 42 of the download handler, line 63 of the stream handler) to a `<name>-<id>` slug, built by the bot's download and stream links here or by the Python webhook's download link at api/webhook.py:148, yields two parts exactly when a `-` occurs; the parts rejoined around it give the slug, and the second has no `-` |
| Decimal.NatToString | bot.py:200 | `str()` of a natural number is a non-empty digit string without a leading zero |
| Links.WebhookCleanNameCons | api/webhook.py:146 | the webhook clean-up works character by character: a space becomes `_`, a parenthesis is dropped, anything else is kept, in order |
| Text.RemoveAllKeepsPartialCopy | bot.py:292 | a character that does not start a full copy of the prefix, even the prefix's first character, is kept and matching resumes after it |
| Text.RemoveAllPartialExample | bot.py:292 | `"share_sha12".replace("share_", "")` is `sha12`: a near-copy of the prefix survives |
| Text.ReplaceChar | bot.py:243 | a one-character `replace` keeps the length and maps each position: the old character becomes the new one, any other stays |
| Text.DeleteChar | api/webhook.py:146 | `replace(c, '')` leaves no `c`, keeps exactly the other characters, and shortens the text by the number of `c`s |
| Text.TakeBefore | bot.py:246 | `split(':')[0]` is a prefix of the text without `:`, followed by `:` unless it is the whole text |
| Decimal.IntToString | api/webhook.py:50 | `str()` of an integer is digits, with a leading `-` exactly for negatives, and reads back as the integer |
| Decimal.IntToStringInjective | api/webhook.py:50 | distinct integers render to distinct texts |
| RedisStore.FileKey | bot.py:49 | the record key is `file:` followed by exactly the short id |
| RedisStore.UserFilesKey | bot.py:53 | the set key is `user:`, then the decimal user id, then `:files` |
| RedisStore.KeysAreDistinct | bot.py:49-53 | distinct ids get distinct record keys, distinct users distinct set keys, and no record key is a set key |
| Text.RemoveAll | bot.py:292 | removing a prefix from a string that cannot contain its first character leaves it unchanged, and never lengthens it |
| BotMedia.Classify | bot.py:171-193 | the file used is the present attachment earliest in document, video, audio, photo; none only when all four are absent |
| BotMedia.FileNameOf | bot.py:171-190 | a document keeps its own possibly missing name; a video or audio keeps a non-empty name and otherwise is named exactly `video_<id>.mp4` / `audio_<id>.mp3` from the draw; a photo is always `photo_<id>.jpg` |
| BotMedia.Streamable | bot.py:249 | a type is streamable exactly when it starts with `video` or `audio` |
| BotMedia.MimeOf | bot.py:175-190 | the stored type is the document's own MIME type (or "document" when empty or missing), else "video", "audio" or "photo" |
| BotMedia.BuildLinks | bot.py:242-276 | the reply carries the file name, `format_file_size` of the size, the share link and exactly `create_file_keyboard(short_id, streamable)`; the stream line appears exactly for video/audio types; download and stream links split back to the short id |
| BotMedia.StoreAndReply | bot.py:213-276 | after a forward the saved record is exactly (file id, name, size, user, timestamp, short id, chat, channel message id, type) under the short id; a failed save answers "Failed to create file links"; a healthy save with no name answers the generic error; a healthy save with a name answers exactly the links built for it |
| BotMedia.HandleMedia | bot.py:168-280 | with replies delivered, exactly one reply ends every run; no attachment answers "Unsupported" with the store unchanged; a missing size answers the generic error; an oversize file (strictly above the maximum) is refused before any forward; a raised forward answers "Failed to store" with the store unchanged; a forward within the limit goes on exactly as StoreAndReply says |
| BotMedia.HealthyUploadGivesLinks | bot.py:213-276 | a classified, sized, named file within the limit whose forward succeeds and whose save is healthy is answered with links, and a get of its short id returns exactly the record built from the message |
| BotCallback.NameText | bot.py:296-297 | a stored name is rendered as itself; the text is `None` exactly for a missing name or a file named `None` |
| BotCallback.Owns | bot.py:295 | the owner gate holds exactly when the store is healthy, `file:<id>` exists and its record's user is the caller |
| BotCallback.ActionLink | bot.py:296-330 | the stream and download links are the route head with the raw stored name, then `-` and the id, for any id; when the id has no `-` they split there back into head and id; the share link is the bot's `start=file_<id>` link |
| BotCallback.HandleCallback | bot.py:284-359 | stream, download and share send a link exactly when the parsed id's record exists and belongs to the caller, and that link is the action's link for that record and id; else "File not found"; revoke always reports the id with its prefix removed; `close` closes; anything else is unknown |
| BotCallback.RevokeIgnoresStore | bot.py:340-348 | the revoke reply is the same for every store and store condition |
| BotCallback.StrangerGetsNothing | bot.py:291-338 | a caller who does not own the record gets "File not found" from every link button of its keyboard |
| BotCallback.UploadedButtonsAnswer | bot.py:237-338 | after an upload answered with links, each stream/download/share button pressed by the uploader answers with a link of that action |
| WebhookPy.IsStart | api/webhook.py:79 | a message is `/start` exactly when it has a text whose first six characters are `/start`; a missing text never is |
| WebhookPy.MappingText | api/webhook.py:50 | the mapping line starts with the `FILMZI_MAP:` tag |
| WebhookPy.LargestPhoto | api/webhook.py:105-107 | the photo chosen has the largest size (missing counts as 0) and is the first of that size |
| WebhookPy.SelectFile | api/webhook.py:93-107 | the file is the document, else the video, else the audio, else the largest photo; none only without any of them |
| WebhookPy.FileName | api/webhook.py:110-114 | the name is the non-empty `file_name`, else `file_unique_id`, else `file_<random id>`; `.jpg` is added only when the message has photos and the name has no dot |
| WebhookPy.MappingTextFields | api/webhook.py:46-59 | the mapping line starts `FILMZI_MAP:`, its first field is the short id and its last field the channel message id |
| WebhookPy.SendLink | api/webhook.py:140-166 | after a mapping answered ok, the third and last call is the link message carrying the name and the download link for the short id; the answer is "ok" exactly when that message did not raise, else 500 |
| WebhookPy.Publish | api/webhook.py:128-166 | the mapping reply is posted to the forwarded message; a raised mapping gives 500; a refused one notifies the user and answers "Mapping failed"; an accepted one sends the download link and answers "ok" (500 when that last message raised) |
| WebhookPy.Upload | api/webhook.py:118-166 | the forward comes first; a raised forward gives 500; a refused one notifies the user and answers "Forward failed" with no mapping; an accepted one without a message id gives 500; with one, the flow goes on as in Publish under the generated name and short id |
| WebhookPy.DoPost | api/webhook.py:62-172 | unparsable body or missing chat gives 500; no message gives 200 "No message" with no call; `/start` only greets and answers "ok" unless the greeting raised; no file answers "No file found" after one notice; a file goes on as in Upload; every status is 200 or 500 |
| WebhookJs.IsStart | api/webhook.js:20 | a message is `/start` exactly when it has a text whose first six characters are `/start`; an empty or missing text never is |
| WebhookJs.SelectFile | api/webhook.js:34-35 | the file is the document, else the video, else the audio; photos are never chosen |
| WebhookJs.MappingText | api/webhook.js:59 | the short id is the first `\|`-separated field of the mapping text, and the text is exactly as long as its three fields and two separators |
| WebhookJs.MappingTextFields | api/webhook.js:59 | after the short id and its `\|` comes exactly `fileId\|fileName`; when the name has no `\|`, the last `\|` split gives `shortId\|fileId` and the name; no reader in these files consumes this three-field line |
| WebhookJs.ReplyTarget | api/webhook.js:58 | `reply_to_message_id` is the text `undefined` exactly when the result has no `message_id`; otherwise it is decimal text that reads back as that id |
| WebhookJs.Base | api/webhook.js:64 | the base is `BASE_URL` when it is non-empty, else `https://` followed by the request host |
| WebhookJs.Upload | api/webhook.js:37-82 | the forward comes first; a rejected forward, a body that is not JSON or one without `result` gives 500; otherwise the mapping replies to the result's message id or `undefined`; a rejected mapping gives 500; after it the link message for the `/dl/` link is sent and the answer is "ok" exactly when that last fetch resolved |
| WebhookJs.Handler | api/webhook.js:10-83 | a non-POST gets 405 before the body is read; no message gives 200 "No message" with no call; `/start` only greets and answers "ok", or leaves the rejection unhandled; no document/video/audio gives "No file found" with no call; a file goes on as in Upload |
| WebhookJs.PhotoOnlyIsNoFile | api/webhook.js:34-35 | a message with only photos is answered "No file found" without any call |

## Left out

- Telegram and Pyrogram calls are not modelled as code. Each is an input
  result. In `handle_callback`, a failing `answer`, `send_message` or
  `message.delete` is not modelled; each would end in the "Error processing
  request" answer.
- A failing `reply_text` in `handle_media` is not modelled. This covers the
  replies at bot.py:192, 197, 209, 239 and 271. Each would raise into the
  handler's `except` (bot.py:278-280), which sends the generic error as a
  second reply. "Exactly one reply" therefore holds only for delivered
  replies. A failing generic reply would leave the handler unhandled.
- Redis connection setup (`get_redis_client`) is left out. JSON encoding and
  decoding are taken as the identity.
- Float formatting is left out: the `:.2f` rendering in `format_file_size`
  and the `size_mb` rounding in `api/webhook.py`. The amounts are exact
  reals.
- Message texts, emoji and button labels are left out. They are represented
  by datatype constructors (`Greeting`, `TooLarge`, `Action`, ...).
- The 500 body of the Python webhook is modelled as `Server error`. The
  exception text that follows it is not.
- `start_command`, `help_command` (bot.py:98-164) and the Python `do_GET`
  status page only send fixed text, so they are not modelled.
- The Pyrogram filters `filters.media & filters.private` are not modelled.
  `HandleMedia` is the handler applied to a message that passed them.
- Some missing fields are assumed present: Python's `message['message_id']`
  and `file_obj['file_id']`, and JavaScript's `req.body`, `message.chat` and
  `message.from`. When they are missing the source raises a KeyError, a
  TypeError or an unhandled rejection. An empty JSON object is taken as
  present, although Python counts it as false.
- `encodeURIComponent` throws on a lone UTF-16 surrogate. Dafny strings hold
  only Unicode scalar values, so that case cannot occur in the model.
- The download, stream and lookup handlers (`api/download`, `api/stream`,
  `api/dl`, `api/db`) are not part of this model. The only piece of them
  used is their convention of splitting a slug at its last `-`
  (`Text.SplitLast`).
- Deleting a record and listing a user's files are not modelled. They are
  not implemented in these files: revoke at bot.py:340-348 is a stub.
- WebhookPy.MappingText: its own contract only says the text starts with the
  `FILMZI_MAP:` tag. The field layout is stated in
  `WebhookPy.MappingTextFields`.

=== FILE: bot_callback.dfy ===
/** `handle_callback` of the bot: the data of a pressed keyboard button is
    dispatched by prefix. Stream, download and share answer with a link when
    the caller owns the record; revoke is a stub that only reports success;
    close deletes the keyboard message. The handler reads the store and
    never writes it. */
module BotCallback {
  import opened Optional
  import opened Text
  import opened Decimal
  import opened ShortId
  import opened RedisStore
  import opened Keyboard
  import opened Links
  import opened BotMedia

  datatype CallbackQuery = CallbackQuery(data: string, userId: int, chatId: int)

  datatype CallbackReply =
    | LinkSent(action: Action, link: string)   // answer plus a message with the link
    | FileNotFound
    | RevokeReported(shortId: string)          // "revoked", though nothing is removed
    | MessageClosed
    | UnknownAction

  /** How the stored name is interpolated: the record always carries the
      `file_name` key, so the `'Unknown'` default never applies, and a
      missing name (a document without one) renders as `None`. */
  function NameText(name: Option<string>): (t: string)
    ensures name.Some? ==> t == name.value
    // a missing name cannot be told apart from a file literally named `None`
    ensures t == "None" <==> name == None || name == Some("None")
  {
    match name
    case Some(s) => s
    case None => "None"
  }

  /** The link a per-file action sends for a record. Unlike the upload
      reply, the raw stored name is used, not the cleaned one. */
  function ActionLink(cfg: BotConfig, a: Action, shortId: string, rec: FileData): (link: string)
    requires a in {Stream, Download, Share}
    ensures a != Share && '-' !in shortId ==>
      SplitLast(link, '-') == Some((BotLinkHead(cfg.baseUrl, if a == Stream then "stream" else "download", NameText(rec.fileName)), shortId))
    ensures a == Share ==> link == ShareLink(cfg.botToken, shortId)
    // whatever the id holds, the link is the route head, a `-`, then the id
    ensures a != Share ==>
      var head := BotLinkHead(cfg.baseUrl, if a == Stream then "stream" else "download", NameText(rec.fileName));
      StartsWith(link, head) && link[|head|..] == "-" + shortId
  {
    match a
    case Stream => BotLink(cfg.baseUrl, "stream", NameText(rec.fileName), shortId)
    case Download => BotLink(cfg.baseUrl, "download", NameText(rec.fileName), shortId)
    case Share => ShareLink(cfg.botToken, shortId)
  }

  /** Whether the caller owns a stored record under `shortId`; a failing
      store reads as no record. */
  predicate Owns(db: Redis, shortId: string, fault: StoreFault, userId: int)
    ensures Owns(db, shortId, fault, userId) <==>
      fault == Healthy && FileKey(shortId) in db.strings && db.strings[FileKey(shortId)].userId == userId
  {
    var rec := GetFromRedis(db, shortId, fault);
    rec.Some? && rec.value.userId == userId
  }

  function HandleCallback(cfg: BotConfig, q: CallbackQuery, db: Redis, fault: StoreFault): (r: CallbackReply)
    ensures r.LinkSent? <==>
      var p := ParseCallbackData(q.data);
      p.Some? && p.value.0 in {Stream, Download, Share} && Owns(db, p.value.1, fault, q.userId)
    ensures r.LinkSent? ==> r.action in {Stream, Download, Share}
    ensures r.LinkSent? ==> Some((r.action, RemoveAll(q.data, Prefix(r.action)))) == ParseCallbackData(q.data)
    ensures r == FileNotFound <==>
      var p := ParseCallbackData(q.data);
      p.Some? && p.value.0 in {Stream, Download, Share} && !Owns(db, p.value.1, fault, q.userId)
    ensures r.RevokeReported? <==> ParseCallbackData(q.data).Some? && ParseCallbackData(q.data).value.0 == Revoke
    ensures r == MessageClosed <==> q.data == "close"
    ensures r == UnknownAction <==> ParseCallbackData(q.data).None?
    // the link sent is the one for the parsed id's stored record
    ensures r.LinkSent? ==>
      var id := ParseCallbackData(q.data).value.1;
      GetFromRedis(db, id, fault).Some? && r.link == ActionLink(cfg, r.action, id, GetFromRedis(db, id, fault).value)
    ensures r.RevokeReported? ==> r.shortId == RemoveAll(q.data, "revoke_")
  {
    match ParseCallbackData(q.data)
    case None => UnknownAction
    case Some((a, shortId)) =>
      match a
      case Close => MessageClosed
      case Revoke => RevokeReported(shortId)
      case _ =>
        if Owns(db, shortId, fault, q.userId) then
          LinkSent(a, ActionLink(cfg, a, shortId, GetFromRedis(db, shortId, fault).value))
        else FileNotFound
  }

  /** Revoke neither reads nor changes the store: its reply is the same for
      every store and every store condition. */
  lemma RevokeIgnoresStore(cfg: BotConfig, q: CallbackQuery, db1: Redis, f1: StoreFault, db2: Redis, f2: StoreFault)
    requires StartsWith(q.data, "revoke_")
    ensures HandleCallback(cfg, q, db1, f1) == HandleCallback(cfg, q, db2, f2) == RevokeReported(RemoveAll(q.data, "revoke_"))
  {
    assert !StartsWith(q.data, "stream_") by { assert q.data[0] == 'r'; }
    assert !StartsWith(q.data, "download_") by { assert q.data[0] == 'r'; }
    assert !StartsWith(q.data, "share_") by { assert q.data[0] == 'r'; }
  }

  /** Owner gating: a caller who does not own the record gets "File not
      found" from every per-file link button of that record's keyboard. */
  lemma StrangerGetsNothing(cfg: BotConfig, shortId: string, isVideo: bool, i: nat, j: nat,
                            db: Redis, stranger: int, chatId: int)
    requires AllDigits(shortId)
    requires i < 3 && j < |CreateFileKeyboard(shortId, isVideo)[i]|
    requires CreateFileKeyboard(shortId, isVideo)[i][j].action in {Stream, Download, Share}
    requires FileKey(shortId) in db.strings && db.strings[FileKey(shortId)].userId != stranger
    ensures HandleCallback(cfg, CallbackQuery(CreateFileKeyboard(shortId, isVideo)[i][j].callbackData, stranger, chatId), db, Healthy)
            == FileNotFound
  {
    KeyboardDataRoundTrip(shortId, isVideo, i, j);
  }

  /** Upload then press: after an upload answered with links, every
      per-file button of that reply's keyboard, pressed by the uploader on
      the resulting store, answers with a link of the button's own action. */
  lemma UploadedButtonsAnswer(cfg: BotConfig, m: MediaMessage, nameDraw: PyDraw, idDraw: PyDraw,
                              forward: ForwardResult, now: int, db: Redis)
    ensures var r := HandleMedia(cfg, m, nameDraw, idDraw, forward, Healthy, now, db);
            FinalReply(r).Links? ==>
              var kb := FinalReply(r).links.keyboard;
              forall i, j :: 0 <= i < |kb| && 0 <= j < |kb[i]| && kb[i][j].action in {Stream, Download, Share} ==>
                HandleCallback(cfg, CallbackQuery(kb[i][j].callbackData, m.userId, m.chatId), r.db, Healthy).LinkSent?
                && HandleCallback(cfg, CallbackQuery(kb[i][j].callbackData, m.userId, m.chatId), r.db, Healthy).action == kb[i][j].action
  {
    var r := HandleMedia(cfg, m, nameDraw, idDraw, forward, Healthy, now, db);
    if FinalReply(r).Links? {
      var kb: seq<seq<Button>> := FinalReply(r).links.keyboard;
      var id := PyShortId(idDraw);
      forall i, j | 0 <= i < |kb| && 0 <= j < |kb[i]| && kb[i][j].action in {Stream, Download, Share}
        ensures HandleCallback(cfg, CallbackQuery(kb[i][j].callbackData, m.userId, m.chatId), r.db, Healthy).LinkSent?
        ensures HandleCallback(cfg, CallbackQuery(kb[i][j].callbackData, m.userId, m.chatId), r.db, Healthy).action == kb[i][j].action
      {
        var b: Button := kb[i][j];
        assert b == ButtonFor(b.action, id);
        ParseOwnData(b.action, id);
      }
    }
  }
}

=== FILE: bot_media.dfy ===
/** `handle_media` of the bot: a private media message is classified, size
    checked, forwarded to the storage channel, recorded in Redis and
    answered with links and a keyboard. The forward is an input: it either
    raised or produced a channel message id. Every reply is taken to be
    delivered; a reply that raised would be followed by the generic error
    reply, and that path is not part of this model. */
module BotMedia {
  import opened Optional
  import opened Text
  import opened Decimal
  import opened ShortId
  import opened FileSize
  import opened RedisStore
  import opened Keyboard
  import opened Links

  /** One attachment as the bot sees it. */
  datatype Media = Media(fileId: string, fileName: Option<string>, fileSize: Option<int>, mimeType: Option<string>)

  datatype MediaMessage = MediaMessage(
    document: Option<Media>,
    video: Option<Media>,
    audio: Option<Media>,
    photo: Option<Media>,
    userId: int,
    chatId: int)

  /** `BASE_URL`, `BOT_TOKEN` and `MAX_FILE_SIZE` of the configuration. */
  datatype BotConfig = BotConfig(baseUrl: string, botToken: string, maxFileSize: int)

  datatype Kind = DocumentKind | VideoKind | AudioKind | PhotoKind

  /** Rank in the order the handler tries the attachments. */
  function Rank(k: Kind): nat {
    match k
    case DocumentKind => 0
    case VideoKind => 1
    case AudioKind => 2
    case PhotoKind => 3
  }

  function Attachment(m: MediaMessage, k: Kind): Option<Media> {
    match k
    case DocumentKind => m.document
    case VideoKind => m.video
    case AudioKind => m.audio
    case PhotoKind => m.photo
  }

  /** The attachment used: the present one earliest in the order document,
      video, audio, photo; none when the message has none of the four. */
  function Classify(m: MediaMessage): (r: Option<(Kind, Media)>)
    ensures r.None? <==> forall k :: Attachment(m, k).None?
    ensures r.Some? ==> Attachment(m, r.value.0) == Some(r.value.1)
    ensures r.Some? ==> forall k :: Rank(k) < Rank(r.value.0) ==> Attachment(m, k).None?
  {
    if m.document.Some? then
      assert Attachment(m, DocumentKind).Some?;
      Some((DocumentKind, m.document.value))
    else if m.video.Some? then
      assert Attachment(m, VideoKind).Some?;
      Some((VideoKind, m.video.value))
    else if m.audio.Some? then
      assert Attachment(m, AudioKind).Some?;
      Some((AudioKind, m.audio.value))
    else if m.photo.Some? then
      assert Attachment(m, PhotoKind).Some?;
      Some((PhotoKind, m.photo.value))
    else None
  }

  /** The stored file name: a document keeps its own (possibly missing)
      name; a video or audio falls back to a generated name when its own is
      missing or empty; a photo always gets a generated name. */
  function FileNameOf(k: Kind, f: Media, draw: PyDraw): (r: Option<string>)
    ensures k == DocumentKind ==> r == f.fileName
    ensures k != DocumentKind ==> r.Some?
    ensures k in {VideoKind, AudioKind} && Truthy(f.fileName) ==> r == f.fileName
    ensures k == VideoKind && !Truthy(f.fileName) ==> r == Some("video_" + PyShortId(draw) + ".mp4")
    ensures k == AudioKind && !Truthy(f.fileName) ==> r == Some("audio_" + PyShortId(draw) + ".mp3")
    ensures k == PhotoKind ==> r == Some("photo_" + PyShortId(draw) + ".jpg")
  {
    match k
    case DocumentKind => f.fileName
    case VideoKind => Some(OrElse(f.fileName, "video_" + PyShortId(draw) + ".mp4"))
    case AudioKind => Some(OrElse(f.fileName, "audio_" + PyShortId(draw) + ".mp3"))
    case PhotoKind => Some("photo_" + PyShortId(draw) + ".jpg")
  }

  /** The stored MIME hint: the document's own type (or "document" when it
      has none), otherwise the kind's name. */
  function MimeOf(k: Kind, f: Media): (r: string)
    ensures k == DocumentKind && Truthy(f.mimeType) ==> r == f.mimeType.value
    ensures k == DocumentKind && !Truthy(f.mimeType) ==> r == "document"
    ensures k == VideoKind ==> r == "video"
    ensures k == AudioKind ==> r == "audio"
    ensures k == PhotoKind ==> r == "photo"
  {
    match k
    case DocumentKind => OrElse(f.mimeType, "document")
    case VideoKind => "video"
    case AudioKind => "audio"
    case PhotoKind => "photo"
  }

  /** Whether the reply offers streaming. */
  function Streamable(mime: string): (b: bool)
    ensures b <==> |mime| >= 5 && mime[..5] in {"video", "audio"}
  {
    StartsWith(mime, "video") || StartsWith(mime, "audio")
  }

  datatype ForwardResult = ForwardRaised | ForwardedAs(channelMsgId: int)

  /** The reply with links. */
  datatype LinkReply = LinkReply(
    fileName: string,
    size: SizeLabel,
    downloadLink: string,
    streamLink: Option<string>,   // the "Watch" line, only for video/audio
    shareLink: string,
    keyboard: seq<seq<Button>>)

  /** What the user is told. */
  datatype Reply =
    | Unsupported        // none of the four attachment kinds
    | TooLarge           // over MAX_FILE_SIZE
    | ForwardFailed      // the forward to the channel raised
    | SaveFailed         // save_to_redis returned False
    | Links(links: LinkReply)
    | ProcessingError    // an exception reached the outer handler

  datatype Effect =
    | ForwardToChannel
    | SaveRecord(shortId: string, data: FileData)
    | ReplyToUser(reply: Reply)

  datatype MediaResult = MediaResult(effects: seq<Effect>, db: Redis)

  predicate Saved(effects: seq<Effect>) {
    exists i :: 0 <= i < |effects| && effects[i].SaveRecord?
  }

  function FinalReply(r: MediaResult): Reply
    requires |r.effects| > 0 && r.effects[|r.effects| - 1].ReplyToUser?
  {
    r.effects[|r.effects| - 1].reply
  }

  /** The link reply for a record saved under `shortId`. */
  function BuildLinks(cfg: BotConfig, name: string, size: int, mime: string, shortId: string): (l: LinkReply)
    ensures '-' !in shortId ==> SplitLast(l.downloadLink, '-') == Some((BotLinkHead(cfg.baseUrl, "download", BotCleanName(name)), shortId))
    ensures l.streamLink.Some? <==> Streamable(mime)
    ensures l.streamLink.Some? && '-' !in shortId ==>
      SplitLast(l.streamLink.value, '-') == Some((BotLinkHead(cfg.baseUrl, "stream", BotCleanName(name)), shortId))
    ensures l.keyboard == CreateFileKeyboard(shortId, Streamable(mime))
    ensures l.fileName == name && l.size == FormatFileSize(size)
    ensures l.shareLink == ShareLink(cfg.botToken, shortId)
  {
    var clean := BotCleanName(name);
    var video := Streamable(mime);
    var download := BotLink(cfg.baseUrl, "download", clean, shortId);
    var stream := if video then Some(BotLink(cfg.baseUrl, "stream", clean, shortId)) else None;
    var keyboard := CreateFileKeyboard(shortId, video);
    LinkReply(name, FormatFileSize(size), download, stream, ShareLink(cfg.botToken, shortId), keyboard)
  }

  /** The part of `handle_media` after a successful forward: save the
      record under the new short id, then reply with the links, or with the
      error the save or a missing document name leads to. */
  function StoreAndReply(cfg: BotConfig, m: MediaMessage, kind: Kind, f: Media, name: Option<string>, size: int,
                         idDraw: PyDraw, channelMsgId: int, fault: StoreFault, now: int, db: Redis): (r: MediaResult)
    ensures |r.effects| == 3 && r.effects[0] == ForwardToChannel && r.effects[1].SaveRecord? && r.effects[2].ReplyToUser?
    // the record written: the chosen attachment, the forward and the message
    ensures r.effects[1] == SaveRecord(PyShortId(idDraw),
      FileData(f.fileId, name, size, m.userId, now, PyShortId(idDraw), m.chatId, channelMsgId, MimeOf(kind, f)))
    ensures r.db == SaveToRedis(db, PyShortId(idDraw), r.effects[1].data, fault).1
    // the reply, for each store condition and name
    ensures fault != Healthy ==> r.effects[2].reply == SaveFailed
    ensures fault == Healthy && name.None? ==> r.effects[2].reply == ProcessingError
    ensures fault == Healthy && name.Some? ==>
      r.effects[2].reply == Links(BuildLinks(cfg, name.value, size, MimeOf(kind, f), PyShortId(idDraw)))
    // links go out only for a record a healthy get reads back for this user
    ensures r.effects[2].reply.Links? ==>
      && GetFromRedis(r.db, PyShortId(idDraw), Healthy).Some?
      && GetFromRedis(r.db, PyShortId(idDraw), Healthy).value.userId == m.userId
  {
    var shortId := PyShortId(idDraw);
    var mime := MimeOf(kind, f);
    var data := FileData(f.fileId, name, size, m.userId, now, shortId, m.chatId, channelMsgId, mime);
    var (ok, db') := SaveToRedis(db, shortId, data, fault);
    var reply :=
      if !ok then SaveFailed
      // a document without a name: `None.replace` raises after the save
      else if name.None? then ProcessingError
      else Links(BuildLinks(cfg, name.value, size, mime, shortId));
    SaveThenGet(db, shortId, data);
    MediaResult([ForwardToChannel, SaveRecord(shortId, data), ReplyToUser(reply)], db')
  }

  /** `handle_media`. `nameDraw` is the `random_id()` a generated file name
      uses, `idDraw` the one that becomes the short id, `now` the timestamp. */
  function HandleMedia(cfg: BotConfig, m: MediaMessage, nameDraw: PyDraw, idDraw: PyDraw,
                       forward: ForwardResult, fault: StoreFault, now: int, db: Redis): (r: MediaResult)
    // with replies delivered, every run ends with exactly one reply
    ensures |r.effects| > 0 && r.effects[|r.effects| - 1].ReplyToUser?
    ensures forall i :: 0 <= i < |r.effects| - 1 ==> !r.effects[i].ReplyToUser?
    // a record is written only after a successful forward
    ensures Saved(r.effects) ==> r.effects[0] == ForwardToChannel && forward.ForwardedAs?
    ensures r.db != db ==> Saved(r.effects)
    // the size gate, inclusive of the maximum, runs before anything else
    ensures (FinalReply(r) == TooLarge) <==>
      (Classify(m).Some? && Classify(m).value.1.fileSize.Some? && Classify(m).value.1.fileSize.value > cfg.maxFileSize)
    ensures FinalReply(r) == TooLarge ==> r.effects == [ReplyToUser(TooLarge)] && r.db == db
    // links are given only for a record that a healthy get reads back
    ensures FinalReply(r).Links? ==>
      forward.ForwardedAs? && fault == Healthy && Saved(r.effects)
      && GetFromRedis(r.db, PyShortId(idDraw), Healthy).Some?
      && GetFromRedis(r.db, PyShortId(idDraw), Healthy).value.userId == m.userId
    // the outcome for each branch of the source
    ensures Classify(m).None? ==> r == MediaResult([ReplyToUser(Unsupported)], db)
    ensures Classify(m).Some? && Classify(m).value.1.fileSize.None? ==>
      r == MediaResult([ReplyToUser(ProcessingError)], db)
    ensures var c := Classify(m);
            c.Some? && c.value.1.fileSize.Some? && c.value.1.fileSize.value <= cfg.maxFileSize ==>
              && (forward.ForwardRaised? ==> r == MediaResult([ForwardToChannel, ReplyToUser(ForwardFailed)], db))
              && (forward.ForwardedAs? ==>
                    r == StoreAndReply(cfg, m, c.value.0, c.value.1, FileNameOf(c.value.0, c.value.1, nameDraw),
                                       c.value.1.fileSize.value, idDraw, forward.channelMsgId, fault, now, db))
  {
    match Classify(m)
    case None => MediaResult([ReplyToUser(Unsupported)], db)
    case Some((kind, f)) =>
      var name := FileNameOf(kind, f, nameDraw);
      if f.fileSize.None? then
        // `None > MAX_FILE_SIZE` raises a TypeError
        MediaResult([ReplyToUser(ProcessingError)], db)
      else if f.fileSize.value > cfg.maxFileSize then
        MediaResult([ReplyToUser(TooLarge)], db)
      else
        var size := f.fileSize.value;
        match forward
        case ForwardRaised => MediaResult([ForwardToChannel, ReplyToUser(ForwardFailed)], db)
        case ForwardedAs(channelMsgId) =>
          StoreAndReply(cfg, m, kind, f, name, size, idDraw, channelMsgId, fault, now, db)
  }

  /** The success path: an attachment within the size limit, forwarded,
      stored healthily and with a name, is answered with links, and a get of
      the new short id returns exactly the record built from the message. */
  lemma HealthyUploadGivesLinks(cfg: BotConfig, m: MediaMessage, nameDraw: PyDraw, idDraw: PyDraw,
                                channelMsgId: int, now: int, db: Redis)
    requires Classify(m).Some?
    requires Classify(m).value.1.fileSize.Some? && Classify(m).value.1.fileSize.value <= cfg.maxFileSize
    requires FileNameOf(Classify(m).value.0, Classify(m).value.1, nameDraw).Some?
    ensures var r := HandleMedia(cfg, m, nameDraw, idDraw, ForwardedAs(channelMsgId), Healthy, now, db);
            var (k, f) := Classify(m).value;
            && FinalReply(r).Links?
            && GetFromRedis(r.db, PyShortId(idDraw), Healthy)
               == Some(FileData(f.fileId, FileNameOf(k, f, nameDraw), f.fileSize.value, m.userId, now,
                                PyShortId(idDraw), m.chatId, channelMsgId, MimeOf(k, f)))
  {
    var (k, f) := Classify(m).value;
    var data := FileData(f.fileId, FileNameOf(k, f, nameDraw), f.fileSize.value, m.userId, now,
                         PyShortId(idDraw), m.chatId, channelMsgId, MimeOf(k, f));
    SaveThenGet(db, PyShortId(idDraw), data);
  }
}

=== FILE: decimal.dfy ===
/** Python's `str(int)` and JavaScript's number-to-string for integers:
    plain decimal, a leading `-` only for negatives, no leading zeros. */
module Decimal {

  predicate IsDigit(c: char) {
    '0' <= c <= '9'
  }

  predicate AllDigits(s: string) {
    forall i :: 0 <= i < |s| ==> IsDigit(s[i])
  }

  function DigitChar(d: nat): (c: char)
    requires d < 10
    ensures IsDigit(c) && (c as int) - ('0' as int) == d
  {
    "0123456789"[d]
  }

  function Pow10(k: nat): (r: nat)
    ensures r >= 1
  {
    if k == 0 then 1 else 10 * Pow10(k - 1)
  }

  lemma Pow10Values()
    ensures Pow10(4) == 10000 && Pow10(5) == 100000
    ensures Pow10(7) == 10000000 && Pow10(8) == 100000000
  {
    assert Pow10(1) == 10;
    assert Pow10(2) == 100;
    assert Pow10(3) == 1000;
    assert Pow10(6) == 1000000;
  }

  /** Decimal rendering of a non-negative integer. */
  function NatToString(n: nat): (s: string)
    ensures |s| >= 1 && AllDigits(s)
    ensures |s| > 1 ==> s[0] != '0'
  {
    if n < 10 then [DigitChar(n)] else NatToString(n / 10) + [DigitChar(n % 10)]
  }

  /** Decimal rendering of any integer. */
  function IntToString(i: int): (s: string)
    ensures |s| >= 1
    ensures i >= 0 ==> AllDigits(s)
    ensures i < 0 ==> s[0] == '-' && AllDigits(s[1..])
    // the text reads back as the number, sign included
    ensures i >= 0 ==> ValueOf(s) == i
    ensures i < 0 ==> ValueOf(s[1..]) == -i
  {
    if i < 0 then
      ValueOfNatToString(-i);
      assert ("-" + NatToString(-i))[1..] == NatToString(-i);
      "-" + NatToString(-i)
    else
      ValueOfNatToString(i);
      NatToString(i)
  }

  /** The value a digit string denotes (Python's `int(s)` on digits). */
  function ValueOf(s: string): nat
    requires AllDigits(s)
  {
    if s == [] then 0 else 10 * ValueOf(s[..|s| - 1]) + ((s[|s| - 1] as int) - ('0' as int))
  }

  /** Reading a rendered number back gives the number. */
  lemma {:induction false} ValueOfNatToString(n: nat)
    ensures ValueOf(NatToString(n)) == n
  {
    var s := NatToString(n);
    if n >= 10 {
      ValueOfNatToString(n / 10);
      assert s[..|s| - 1] == NatToString(n / 10);
    }
  }

  /** Rendering is injective: distinct numbers have distinct renderings. */
  lemma NatToStringInjective(m: nat, n: nat)
    requires NatToString(m) == NatToString(n)
    ensures m == n
  {
    ValueOfNatToString(m);
    ValueOfNatToString(n);
  }

  /** Distinct integers have distinct renderings: the sign shows in the
      first character and the digits read back as the magnitude. */
  lemma IntToStringInjective(a: int, b: int)
    requires IntToString(a) == IntToString(b)
    ensures a == b
  {
  }

  /** A number has exactly `k` digits when it lies in [10^(k-1), 10^k). */
  lemma {:induction false} NatToStringLength(n: nat, k: nat)
    requires k >= 1 && Pow10(k - 1) <= n < Pow10(k)
    ensures |NatToString(n)| == k
  {
    if k > 1 {
      assert Pow10(k - 1) == 10 * Pow10(k - 2);
      NatToStringLength(n / 10, k - 1);
    }
  }
}

=== FILE: file_size.dfy ===
/** `format_file_size` of the bot: a byte count is divided by 1024 while it
    is at least 1024 and a larger unit remains, picking one of B, KB, MB,
    GB, TB. Division is exact here (reals); the two-decimal rendering of
    the amount is not modelled. */
module FileSize {

  const UnitNames: seq<string> := ["B", "KB", "MB", "GB", "TB"]

  /** Index of the last unit, `len(size_names) - 1`. */
  const MaxUnit: nat := |UnitNames| - 1

  function Pow1024(i: nat): (r: real)
    ensures r >= 1.0
  {
    if i == 0 then 1.0 else 1024.0 * Pow1024(i - 1)
  }

  datatype SizeLabel =
    | ZeroBytes                        // the literal "0 B"
    | Scaled(amount: real, unit: nat)  // f"{amount:.2f} {UnitNames[unit]}"

  /** `a` multiplied by 1024, `k` times: the byte count an amount of `a`
      in unit `k` stands for. */
  function Scale(a: real, k: nat): real {
    if k == 0 then a else 1024.0 * Scale(a, k - 1)
  }

  /** The division loop, entered with value `x` at unit index `i`. */
  function ScaleFrom(x: real, i: nat): (r: (real, nat))
    requires i <= MaxUnit
    ensures i <= r.1 <= MaxUnit
    ensures Scale(r.0, r.1 - i) == x
    ensures r.1 < MaxUnit ==> r.0 < 1024.0
    ensures r.1 > i ==> r.0 >= 1.0
    ensures r.1 == i <==> (x < 1024.0 || i == MaxUnit)
    decreases MaxUnit - i
  {
    if x >= 1024.0 && i < MaxUnit then
      var r := ScaleFrom(x / 1024.0, i + 1);
      assert Scale(r.0, r.1 - i) == 1024.0 * Scale(r.0, r.1 - (i + 1));
      r
    else (x, i)
  }

  /** The unit chosen never passes TB; the amount in that unit stands for
      exactly the input; the amount is below 1024 unless the unit is TB, and
      at least 1 for any positive size; zero alone is rendered "0 B". */
  function FormatFileSize(size: int): (r: SizeLabel)
    ensures size == 0 <==> r == ZeroBytes
    ensures r.Scaled? ==> r.unit <= MaxUnit && Scale(r.amount, r.unit) == size as real
    ensures r.Scaled? && r.unit < MaxUnit ==> r.amount < 1024.0
    ensures r.Scaled? && size >= 1 ==> r.amount >= 1.0
    ensures r.Scaled? && size < 1024 ==> r.unit == 0
  {
    if size == 0 then ZeroBytes
    else
      var p := ScaleFrom(size as real, 0);
      assert p.1 - 0 == p.1;
      Scaled(p.0, p.1)
  }

  lemma {:induction false} Pow1024Increasing(i: nat, j: nat)
    requires i < j
    ensures 1024.0 * Pow1024(i) <= Pow1024(j)
    decreases j
  {
    if i + 1 < j {
      Pow1024Increasing(i, j - 1);
    }
  }

  /** An amount of at least 1 in unit `k` is at least 1024^k bytes, and an
      amount below 1024 is below 1024^(k+1) bytes. */
  lemma {:induction false} ScaleBounds(a: real, k: nat)
    ensures a >= 1.0 ==> Scale(a, k) >= Pow1024(k)
    ensures a < 1024.0 ==> Scale(a, k) < Pow1024(k + 1)
  {
    if k > 0 {
      ScaleBounds(a, k - 1);
    }
  }

  /** Independent characterisation of the unit: for a positive size, the
      unit is the unique index k <= 4 with 1024^k <= size, and size below
      1024^(k+1) unless k is TB. */
  lemma UnitIsUniqueFit(size: int, k: nat)
    requires size >= 1 && k <= MaxUnit
    requires Pow1024(k) <= size as real
    requires k < MaxUnit ==> (size as real) < Pow1024(k + 1)
    ensures FormatFileSize(size).unit == k
  {
    var r := FormatFileSize(size);
    ScaleBounds(r.amount, r.unit);
    if r.unit < k {
      if r.unit + 1 < k {
        Pow1024Increasing(r.unit + 1, k);
      }
    } else if r.unit > k {
      if k + 1 < r.unit {
        Pow1024Increasing(k + 1, r.unit);
      }
    }
  }

  /** The 1572864000-byte example renders as 1.46484375 GB, i.e. "1.46 GB". */
  lemma ExampleGigabytes()
    ensures FormatFileSize(1572864000) == Scaled(1.46484375, 3)
  {
    assert Pow1024(3) == 1073741824.0 by {
      assert Pow1024(1) == 1024.0;
      assert Pow1024(2) == 1048576.0;
    }
    assert Pow1024(4) == 1099511627776.0;
    UnitIsUniqueFit(1572864000, 3);
  }
}

=== FILE: keyboard.dfy ===
/** The inline keyboard attached to an upload reply, and the parsing of the
    `callback_data` its buttons send back. */
module Keyboard {
  import opened Optional
  import opened Text
  import opened Decimal

  datatype Action = Stream | Download | Share | Revoke | Close

  /** One button: which action its label shows and the data it sends. */
  datatype Button = Button(action: Action, callbackData: string)

  /** The data prefix of each per-file action. */
  function Prefix(a: Action): (p: string)
    requires a != Close
    ensures |p| > 0 && !IsDigit(p[0]) && p[|p| - 1] == '_'
  {
    match a
    case Stream => "stream_"
    case Download => "download_"
    case Share => "share_"
    case Revoke => "revoke_"
  }

  function ButtonFor(a: Action, fileId: string): (b: Button)
    ensures b.action == a
  {
    if a == Close then Button(Close, "close") else Button(a, Prefix(a) + fileId)
  }

  /** The actions of each keyboard row, top to bottom. */
  function Layout(isVideo: bool): seq<seq<Action>> {
    [if isVideo then [Stream, Download] else [Download], [Share, Revoke], [Close]]
  }

  /** How `handle_callback` reads `data`: the first matching prefix among
      stream, download, share, revoke, then the exact word `close`. The id
      is `data` with EVERY occurrence of the prefix removed, as Python's
      `str.replace` does, not just the leading one. */
  function ParseCallbackData(data: string): (r: Option<(Action, string)>)
    ensures r.None? <==> data != "close" && forall a :: a != Close ==> !StartsWith(data, Prefix(a))
    ensures r.Some? && r.value.0 == Close <==> data == "close"
    ensures r.Some? && r.value.0 != Close ==>
      StartsWith(data, Prefix(r.value.0)) && r.value.1 == RemoveAll(data, Prefix(r.value.0))
  {
    assert Prefix(Stream) == "stream_" && Prefix(Download) == "download_";
    assert Prefix(Share) == "share_" && Prefix(Revoke) == "revoke_";
    if StartsWith(data, "stream_") then Some((Stream, RemoveAll(data, "stream_")))
    else if StartsWith(data, "download_") then Some((Download, RemoveAll(data, "download_")))
    else if StartsWith(data, "share_") then Some((Share, RemoveAll(data, "share_")))
    else if StartsWith(data, "revoke_") then Some((Revoke, RemoveAll(data, "revoke_")))
    else if data == "close" then Some((Close, ""))
    else None
  }

  /** `create_file_keyboard`: three rows laid out as `Layout` says, so
      STREAM leads the first row exactly for video/audio. */
  function CreateFileKeyboard(fileId: string, isVideo: bool): (rows: seq<seq<Button>>)
    ensures |rows| == 3
    ensures forall i :: 0 <= i < 3 ==> |rows[i]| == |Layout(isVideo)[i]|
    ensures forall i, j :: 0 <= i < 3 && 0 <= j < |rows[i]| ==> rows[i][j] == ButtonFor(Layout(isVideo)[i][j], fileId)
  {
    [ if isVideo then [ButtonFor(Stream, fileId), ButtonFor(Download, fileId)] else [ButtonFor(Download, fileId)],
      [ButtonFor(Share, fileId), ButtonFor(Revoke, fileId)],
      [ButtonFor(Close, fileId)] ]
  }

  /** Every button of a keyboard built for a digit-only id reads back, through
      the callback dispatcher, as its own action and that id. */
  lemma KeyboardDataRoundTrip(fileId: string, isVideo: bool, i: nat, j: nat)
    requires AllDigits(fileId)
    requires i < 3 && j < |CreateFileKeyboard(fileId, isVideo)[i]|
    ensures var b := CreateFileKeyboard(fileId, isVideo)[i][j];
            ParseCallbackData(b.callbackData) == Some((b.action, if b.action == Close then "" else fileId))
  {
    var b := CreateFileKeyboard(fileId, isVideo)[i][j];
    if b.action != Close {
      assert b == ButtonFor(b.action, fileId);
      ParseOwnData(b.action, fileId);
    }
  }

  /** The prefixes exclude one another, so the order in which the
      dispatcher tries them never matters: data starting with an action's
      prefix is that action's, with every copy of the prefix removed. */
  lemma DispatchByPrefix(a: Action, data: string)
    requires a != Close && StartsWith(data, Prefix(a))
    ensures ParseCallbackData(data) == Some((a, RemoveAll(data, Prefix(a))))
  {
    assert data[..|Prefix(a)|] == Prefix(a);
    assert data[0] == Prefix(a)[0] && data[1] == Prefix(a)[1];
    match a
    case Stream =>
    case Download =>
      assert !StartsWith(data, "stream_") by { assert data[0] == 'd'; }
    case Share =>
      assert !StartsWith(data, "stream_") by { assert data[1] == 'h'; }
      assert !StartsWith(data, "download_") by { assert data[0] == 's'; }
    case Revoke =>
      assert !StartsWith(data, "stream_") by { assert data[0] == 'r'; }
      assert !StartsWith(data, "download_") by { assert data[0] == 'r'; }
      assert !StartsWith(data, "share_") by { assert data[0] == 'r'; }
  }

  /** A button's data dispatches to that button's action and file id. */
  lemma ParseOwnData(a: Action, fileId: string)
    requires a != Close && AllDigits(fileId)
    ensures ParseCallbackData(Prefix(a) + fileId) == Some((a, fileId))
  {
    var data := Prefix(a) + fileId;
    assert Prefix(a)[0] !in fileId;
    RemoveAllAfterMarker(Prefix(a), fileId);
    assert data[..|Prefix(a)|] == Prefix(a);
    DispatchByPrefix(a, data);
  }

  /** The id is the data with every copy of the prefix removed, not just the
      leading one: `stream_1stream_2` asks for id `12`. */
  lemma EveryPrefixCopyRemoved(a: Action, d1: string, d2: string)
    requires a != Close && AllDigits(d1) && AllDigits(d2)
    ensures ParseCallbackData(Prefix(a) + d1 + Prefix(a) + d2) == Some((a, d1 + d2))
  {
    var p := Prefix(a);
    var data := p + (d1 + (p + d2));
    assert Prefix(a) + d1 + Prefix(a) + d2 == data;
    assert p[0] !in d1 && p[0] !in d2;
    assert data[..|p|] == p;
    DispatchByPrefix(a, data);
    RemoveAllOccurrence(p, d1 + (p + d2));
    RemoveAllSkips(d1, p + d2, p);
    RemoveAllOccurrence(p, d2);
    RemoveAllSkips(d2, [], p);
    assert d2 + [] == d2;
  }
}

=== FILE: links.dfy ===
/** The public link text the upload handlers build: a path segment
    `<name>-<short id>` under a base URL. The download handlers read such a
    segment back by splitting at its last `-`, so a link is sound exactly
    when the id contains no `-`. */
module Links {
  import opened Optional
  import opened Text
  import opened PercentEncoding

  /** A link ending in `-<id>`, split at its last `-`, yields `id` and
      everything before the separator, whatever that prefix contains. */
  lemma IdAfterLastDash(head: string, id: string)
    ensures '-' !in id ==> SplitLast(head + "-" + id, '-') == Some((head, id))
  {
    if '-' !in id {
      SplitLastOfJoin(head, '-', id);
    }
  }

  /** The bot's `clean_name`: every space becomes a dot. */
  function BotCleanName(name: string): (r: string)
    ensures ' ' !in r && |r| == |name|
    ensures forall i :: 0 <= i < |name| && name[i] == ' ' ==> r[i] == '.'
    ensures forall i :: 0 <= i < |name| && name[i] != ' ' ==> r[i] == name[i]
  {
    ReplaceChar(name, ' ', '.')
  }

  /** Everything of a bot link before the `-` that precedes the id. */
  function BotLinkHead(baseUrl: string, route: string, name: string): string {
    baseUrl + "/api/" + route + "/" + name
  }

  /** `f"{BASE_URL}/api/{route}/{name}-{short_id}"` of the bot. */
  function BotLink(baseUrl: string, route: string, name: string, shortId: string): (r: string)
    ensures StartsWith(r, BotLinkHead(baseUrl, route, name))
    ensures '-' !in shortId ==> SplitLast(r, '-') == Some((BotLinkHead(baseUrl, route, name), shortId))
  {
    var head := BotLinkHead(baseUrl, route, name);
    var r := head + "-" + shortId;
    assert r[..|head|] == head;
    IdAfterLastDash(head, shortId);
    r
  }

  /** The share link: a deep link to the bot whose name is taken as the
      part of the bot token before its first `:`. */
  function ShareLink(botToken: string, shortId: string): (r: string)
    ensures StartsWith(r, "https://t.me/" + TakeBefore(botToken, ':') + "?start=file_")
    ensures r[|"https://t.me/" + TakeBefore(botToken, ':') + "?start=file_"|..] == shortId
  {
    var head := "https://t.me/" + TakeBefore(botToken, ':') + "?start=file_";
    var r := head + shortId;
    assert r[..|head|] == head;
    r
  }

  /** The webhook's `clean_name`: spaces become `_`, parentheses are dropped. */
  function WebhookCleanName(name: string): (r: string)
    ensures ' ' !in r && '(' !in r && ')' !in r
    ensures forall c :: c != ' ' && c != '(' && c != ')' ==> (c in r <==> c in name) || (c == '_' && ' ' in name)
  {
    DeleteChar(DeleteChar(ReplaceChar(name, ' ', '_'), '('), ')')
  }

  /** What the webhook's cleaning makes of one character. */
  function CleanChar(ch: char): string {
    if ch == ' ' then "_" else if ch == '(' || ch == ')' then "" else [ch]
  }

  /** The webhook's cleaning works character by character, left to right:
      together with `WebhookCleanName("") == ""` this determines the
      cleaned name completely, order and multiplicity included. */
  lemma WebhookCleanNameCons(ch: char, rest: string)
    ensures WebhookCleanName([]) == []
    ensures WebhookCleanName([ch] + rest) == CleanChar(ch) + WebhookCleanName(rest)
  {
    var ch' := if ch == ' ' then '_' else ch;
    var r := ReplaceChar(rest, ' ', '_');
    assert ReplaceChar([ch] + rest, ' ', '_') == [ch'] + r;
    DeleteCharAppend([ch'], r, '(');
    DeleteCharAppend(DeleteChar([ch'], '('), DeleteChar(r, '('), ')');
  }

  /** The webhook's `domain`: `VERCEL_URL` (default `your-app.vercel.app`)
      with `https://` put in front unless it already starts with `http`. */
  function WebhookDomain(vercelUrl: Option<string>): (r: string)
    ensures StartsWith(r, "http")
    ensures var d := vercelUrl.GetOr("your-app.vercel.app");
            r == (if StartsWith(d, "http") then d else "https://" + d)
  {
    var d := vercelUrl.GetOr("your-app.vercel.app");
    if StartsWith(d, "http") then d
    else
      assert ("https://" + d)[..4] == "http";
      "https://" + d
  }

  /** `f"{domain}/api/download/{quote(clean_name)}-{short_id}"`: the
      segment before the id is URL-safe, and the id is recovered by the last
      `-` split. */
  function WebhookDownloadLink(domain: string, fileName: string, shortId: string): (r: string)
    ensures var seg := Encode(PythonQuote, WebhookCleanName(fileName));
            && (forall i :: 0 <= i < |seg| ==> UrlSafe(PythonQuote, seg[i]))
            && ('-' !in shortId ==> SplitLast(r, '-') == Some((domain + "/api/download/" + seg, shortId)))
  {
    var seg := Encode(PythonQuote, WebhookCleanName(fileName));
    IdAfterLastDash(domain + "/api/download/" + seg, shortId);
    domain + "/api/download/" + seg + "-" + shortId
  }

  /** The JavaScript webhook's `` `${base}/dl/${encodeURIComponent(fileName)}-${shortId}` ``. */
  function JsDownloadLink(base: string, fileName: string, shortId: string): (r: string)
    ensures var seg := Encode(JsEncodeUriComponent, fileName);
            && (forall i :: 0 <= i < |seg| ==> UrlSafe(JsEncodeUriComponent, seg[i]))
            && ('-' !in shortId ==> SplitLast(r, '-') == Some((base + "/dl/" + seg, shortId)))
  {
    var seg := Encode(JsEncodeUriComponent, fileName);
    IdAfterLastDash(base + "/dl/" + seg, shortId);
    base + "/dl/" + seg + "-" + shortId
  }
}

=== FILE: optional.dfy ===
/** The absent-or-present value used for optional message fields, store
    lookups and collaborator results. */
module Optional {

  datatype Option<+T> = None | Some(value: T) {

    /** The value, or `default` when absent (Python's `dict.get(k, default)`). */
    function GetOr(default: T): T {
      match this
      case Some(v) => v
      case None => default
    }
  }
}

=== FILE: percent.dfy ===
/** Percent-encoding of path segments (section 2.1 of RFC 3986): a
    character outside the encoder's unreserved set is replaced by its UTF-8
    bytes, each written as `%` and two upper-case hex digits. Two encoders
    are used by the upload handlers: Python's `urllib.parse.quote` with its
    default `safe='/'`, and JavaScript's `encodeURIComponent`. */
module PercentEncoding {
  import opened Optional

  type byte = b: int | 0 <= b < 256

  datatype Encoder = PythonQuote | JsEncodeUriComponent

  predicate IsAsciiAlnum(c: char) {
    'A' <= c <= 'Z' || 'a' <= c <= 'z' || '0' <= c <= '9'
  }

  /** The characters each encoder leaves as they are. */
  predicate Unreserved(e: Encoder, c: char) {
    match e
    case PythonQuote => IsAsciiAlnum(c) || c in {'_', '.', '-', '~', '/'}
    case JsEncodeUriComponent => IsAsciiAlnum(c) || c in {'-', '_', '.', '!', '~', '*', '\'', '(', ')'}
  }

  const HexDigits: string := "0123456789ABCDEF"

  predicate IsHex(c: char) {
    '0' <= c <= '9' || 'A' <= c <= 'F' || 'a' <= c <= 'f'
  }

  function HexValue(c: char): (v: nat)
    requires IsHex(c)
    ensures v < 16
  {
    if '0' <= c <= '9' then (c as int) - ('0' as int)
    else if 'A' <= c <= 'F' then (c as int) - ('A' as int) + 10
    else (c as int) - ('a' as int) + 10
  }

  lemma HexDigitValue(d: nat)
    requires d < 16
    ensures IsHex(HexDigits[d]) && HexValue(HexDigits[d]) == d
  {
  }

  /** The UTF-8 encoding of one Unicode scalar value. */
  function Utf8(c: char): (bs: seq<byte>)
    ensures 1 <= |bs| <= 4
    ensures (c as int) < 0x80 <==> bs == [c as int]
  {
    var cp := c as int;
    if cp < 0x80 then [cp]
    else if cp < 0x800 then [0xC0 + cp / 64, 0x80 + cp % 64]
    else if cp < 0x10000 then [0xE0 + cp / 4096, 0x80 + (cp / 64) % 64, 0x80 + cp % 64]
    else [0xF0 + cp / 262144, 0x80 + (cp / 4096) % 64, 0x80 + (cp / 64) % 64, 0x80 + cp % 64]
  }

  function Utf8String(s: string): seq<byte> {
    if s == [] then [] else Utf8(s[0]) + Utf8String(s[1..])
  }

  /** Each byte written as `%XY`. */
  function PercentBytes(bs: seq<byte>): (r: string)
    ensures |r| == 3 * |bs|
  {
    if bs == [] then [] else ['%', HexDigits[bs[0] / 16], HexDigits[bs[0] % 16]] + PercentBytes(bs[1..])
  }

  /** Characters an encoder's output consists of. */
  predicate UrlSafe(e: Encoder, c: char) {
    Unreserved(e, c) || c == '%' || c in HexDigits
  }

  /** `quote(s)` / `encodeURIComponent(s)`. */
  function Encode(e: Encoder, s: string): (r: string)
    ensures forall i :: 0 <= i < |r| ==> UrlSafe(e, r[i])
    ensures (forall i :: 0 <= i < |s| ==> Unreserved(e, s[i])) ==> r == s
  {
    if s == [] then []
    else
      var head := if Unreserved(e, s[0]) then [s[0]] else PercentBytes(Utf8(s[0]));
      assert forall i :: 0 <= i < |head| ==> UrlSafe(e, head[i]) by {
        if !Unreserved(e, s[0]) { PercentBytesSafe(e, Utf8(s[0])); }
      }
      head + Encode(e, s[1..])
  }

  lemma {:induction false} PercentBytesSafe(e: Encoder, bs: seq<byte>)
    ensures forall i :: 0 <= i < |PercentBytes(bs)| ==> UrlSafe(e, PercentBytes(bs)[i])
  {
    if bs != [] {
      PercentBytesSafe(e, bs[1..]);
    }
  }

  /** Percent-decoding to bytes: `%XY` is the byte 0xXY, any other ASCII
      character is its own byte; a broken escape or a non-ASCII character
      is rejected. */
  function PercentDecode(t: string): Option<seq<byte>>
    decreases |t|
  {
    if t == [] then Some([])
    else if t[0] == '%' then
      if |t| >= 3 && IsHex(t[1]) && IsHex(t[2]) then
        Prepend([16 * HexValue(t[1]) + HexValue(t[2])], PercentDecode(t[3..]))
      else None
    else if (t[0] as int) < 0x80 then Prepend([t[0] as int], PercentDecode(t[1..]))
    else None
  }

  function Prepend(bs: seq<byte>, o: Option<seq<byte>>): Option<seq<byte>> {
    match o
    case Some(rest) => Some(bs + rest)
    case None => None
  }

  lemma DecodeOneByte(b: byte, tail: string)
    ensures PercentDecode(['%', HexDigits[b / 16], HexDigits[b % 16]] + tail) == Prepend([b], PercentDecode(tail))
  {
    var t := ['%', HexDigits[b / 16], HexDigits[b % 16]] + tail;
    HexDigitValue(b / 16);
    HexDigitValue(b % 16);
    assert t[3..] == tail;
  }

  lemma PrependTwice(a: seq<byte>, b: seq<byte>, o: Option<seq<byte>>)
    ensures Prepend(a, Prepend(b, o)) == Prepend(a + b, o)
  {
    if o.Some? {
      assert a + (b + o.value) == (a + b) + o.value;
    }
  }

  lemma {:induction false} DecodePercentBytes(bs: seq<byte>, rest: string)
    ensures PercentDecode(PercentBytes(bs) + rest) == Prepend(bs, PercentDecode(rest))
  {
    if bs == [] {
      assert PercentBytes(bs) + rest == rest;
      match PercentDecode(rest)
      case None =>
      case Some(r) => assert bs + r == r;
    } else {
      var tail := PercentBytes(bs[1..]) + rest;
      assert PercentBytes(bs) + rest == ['%', HexDigits[bs[0] / 16], HexDigits[bs[0] % 16]] + tail;
      DecodeOneByte(bs[0], tail);
      DecodePercentBytes(bs[1..], rest);
      PrependTwice([bs[0]], bs[1..], PercentDecode(rest));
      assert [bs[0]] + bs[1..] == bs;
    }
  }

  /** An unreserved character is ASCII and not `%`, so it decodes to its
      own single UTF-8 byte. */
  lemma DecodeUnreserved(e: Encoder, c: char, rest: string)
    requires Unreserved(e, c)
    ensures PercentDecode([c] + rest) == Prepend(Utf8(c), PercentDecode(rest))
  {
    var t := [c] + rest;
    assert c != '%' && (c as int) < 0x80;
    assert t[1..] == rest;
  }

  /** Round trip: decoding what an encoder produced gives back exactly the
      UTF-8 bytes of the original text, for both encoders. */
  lemma {:induction false} DecodeEncode(e: Encoder, s: string)
    ensures PercentDecode(Encode(e, s)) == Some(Utf8String(s))
  {
    if s != [] {
      var rest := Encode(e, s[1..]);
      DecodeEncode(e, s[1..]);
      assert Utf8String(s) == Utf8(s[0]) + Utf8String(s[1..]);
      if Unreserved(e, s[0]) {
        assert Encode(e, s) == [s[0]] + rest;
        DecodeUnreserved(e, s[0], rest);
      } else {
        assert Encode(e, s) == PercentBytes(Utf8(s[0])) + rest;
        DecodePercentBytes(Utf8(s[0]), rest);
      }
    }
  }
}

=== FILE: redis_store.dfy ===
/** The bot's Redis mapping store. Each upload is a string key
    `file:<short_id>` holding the (JSON-encoded) upload record, and each
    user owns a set key `user:<user_id>:files` listing their short ids.
    JSON encoding and decoding is taken as the identity, so the record is
    stored as it is. */
module RedisStore {
  import opened Optional
  import opened Decimal

  /** The `file_data` dictionary the bot saves for an upload. */
  datatype FileData = FileData(
    fileId: string,
    fileName: Option<string>,   // a document may arrive without a name
    fileSize: int,
    userId: int,
    timestamp: int,
    shortId: string,
    chatId: int,
    channelMsgId: int,
    mimeType: string)

  /** The part of the Redis keyspace the bot uses: string keys and set keys. */
  datatype Redis = Redis(strings: map<string, FileData>, sets: map<string, set<string>>)

  /** How a store call goes. `SetFails` covers an unreachable server or a
      failing `SET`; `AddFails` is a `SET` that went through followed by a
      failing `SADD`. */
  datatype StoreFault = Healthy | SetFails | AddFails

  /** `f"file:{short_id}"`. */
  function FileKey(shortId: string): (k: string)
    ensures |k| == |shortId| + 5 && k[..5] == "file:" && k[5..] == shortId
  {
    "file:" + shortId
  }

  /** `f"user:{user_id}:files"`. */
  function UserFilesKey(userId: int): (k: string)
    ensures |k| >= 12 && k[..5] == "user:" && k[|k| - 6..] == ":files"
    ensures k[5..|k| - 6] == IntToString(userId)
  {
    var k := "user:" + IntToString(userId) + ":files";
    assert k[5..|k| - 6] == IntToString(userId);
    k
  }

  /** Distinct ids have distinct record keys, distinct users distinct set
      keys, and a record key is never a set key. */
  lemma KeysAreDistinct(id1: string, id2: string, u1: int, u2: int)
    ensures FileKey(id1) == FileKey(id2) ==> id1 == id2
    ensures UserFilesKey(u1) == UserFilesKey(u2) ==> u1 == u2
    ensures FileKey(id1) != UserFilesKey(u1)
  {
    if UserFilesKey(u1) == UserFilesKey(u2) {
      var k1, k2 := UserFilesKey(u1), UserFilesKey(u2);
      assert k1[5..|k1| - 6] == k2[5..|k2| - 6];
      IntToStringInjective(u1, u2);
    }
    assert FileKey(id1)[..5] != UserFilesKey(u1)[..5];
  }

  /** Members of a set key; a missing key reads as the empty set. */
  function Members(db: Redis, key: string): set<string> {
    if key in db.sets then db.sets[key] else {}
  }

  /** Every id listed under any set key names a stored record. */
  ghost predicate IndexConsistent(db: Redis) {
    forall key, id :: key in db.sets && id in db.sets[key] ==> FileKey(id) in db.strings
  }

  /** `save_to_redis`: an unconditional upsert of `file:<id>` followed by
      adding the id to the owner's set; `True` only when both happened.
      No other key changes, and no existing record is checked first. */
  function SaveToRedis(db: Redis, shortId: string, data: FileData, fault: StoreFault): (r: (bool, Redis))
    ensures r.0 <==> fault == Healthy
    ensures fault != SetFails ==> r.1.strings == db.strings[FileKey(shortId) := data]
    ensures fault == SetFails ==> r.1 == db
    ensures fault == Healthy ==>
      r.1.sets == db.sets[UserFilesKey(data.userId) := Members(db, UserFilesKey(data.userId)) + {shortId}]
    ensures fault != Healthy ==> r.1.sets == db.sets
  {
    match fault
    case SetFails => (false, db)
    case AddFails => (false, db.(strings := db.strings[FileKey(shortId) := data]))
    case Healthy =>
      var key := UserFilesKey(data.userId);
      (true, Redis(db.strings[FileKey(shortId) := data], db.sets[key := Members(db, key) + {shortId}]))
  }

  /** `get_from_redis`: the stored record, or `None` for a missing key or
      a failing store. */
  function GetFromRedis(db: Redis, shortId: string, fault: StoreFault): (r: Option<FileData>)
    ensures r.Some? <==> fault == Healthy && FileKey(shortId) in db.strings
    ensures r.Some? ==> r.value == db.strings[FileKey(shortId)]
  {
    if fault == Healthy && FileKey(shortId) in db.strings then Some(db.strings[FileKey(shortId)]) else None
  }

  /** A healthy save is read back by a healthy get of the same id. */
  lemma SaveThenGet(db: Redis, shortId: string, data: FileData)
    ensures GetFromRedis(SaveToRedis(db, shortId, data, Healthy).1, shortId, Healthy) == Some(data)
    ensures shortId in Members(SaveToRedis(db, shortId, data, Healthy).1, UserFilesKey(data.userId))
  {
  }

  /** Saving leaves every other id's record as it was, whatever the fault. */
  lemma SaveKeepsOtherRecords(db: Redis, shortId: string, data: FileData, fault: StoreFault, other: string)
    requires other != shortId
    ensures GetFromRedis(SaveToRedis(db, shortId, data, fault).1, other, Healthy) == GetFromRedis(db, other, Healthy)
  {
    assert FileKey(other) != FileKey(shortId) by {
      assert FileKey(other)[5..] == other;
      assert FileKey(shortId)[5..] == shortId;
    }
  }

  /** Ids are not checked for collisions: saving a second record under a
      taken id, by another user or the same one, replaces the first, while
      the first owner's set still lists the id, now naming the second
      record. */
  lemma CollisionOverwrites(db: Redis, shortId: string, first: FileData, second: FileData)
    ensures var db1 := SaveToRedis(db, shortId, first, Healthy).1;
            var db2 := SaveToRedis(db1, shortId, second, Healthy).1;
            && GetFromRedis(db2, shortId, Healthy) == Some(second)
            && shortId in Members(db2, UserFilesKey(first.userId))
  {
    var db1 := SaveToRedis(db, shortId, first, Healthy).1;
    var db2 := SaveToRedis(db1, shortId, second, Healthy).1;
    var k1, k2 := UserFilesKey(first.userId), UserFilesKey(second.userId);
    if k1 == k2 {
      assert Members(db2, k1) == Members(db1, k1) + {shortId};
    }
  }

  /** No save, failed or not, leaves a set listing an id with no record:
      the record is written before the index, so a failure can orphan a
      record but never an index entry. */
  lemma SavePreservesIndexConsistency(db: Redis, shortId: string, data: FileData, fault: StoreFault)
    requires IndexConsistent(db)
    ensures IndexConsistent(SaveToRedis(db, shortId, data, fault).1)
  {
    var db' := SaveToRedis(db, shortId, data, fault).1;
    forall key, id | key in db'.sets && id in db'.sets[key]
      ensures FileKey(id) in db'.strings
    {
      if fault == Healthy && key == UserFilesKey(data.userId) && id !in Members(db, key) {
        assert id == shortId;
      }
    }
  }
}

=== FILE: short_id.dfy ===
/** The short public identifiers handed out at upload time. The Python
    handlers draw `random.randint(10000000, 99999999)` (inclusive) and use
    its decimal string; the JavaScript handler computes
    `Math.floor(10000 + Math.random() * 90000)`. The random source is an
    input: `PyDraw` is any value `randint` may return, `UnitDraw` any value
    `Math.random` may return. */
module ShortId {
  import opened Decimal

  type PyDraw = n: int | 10000000 <= n <= 99999999 witness 10000000

  type UnitDraw = u: real | 0.0 <= u < 1.0 witness 0.0

  /** `str(random_id())`: eight decimal digits, hence no `-` and no `|`. */
  function PyShortId(draw: PyDraw): (id: string)
    ensures |id| == 8 && AllDigits(id)
    ensures '-' !in id && '|' !in id
    ensures ValueOf(id) == draw
  {
    Pow10Values();
    NatToStringLength(draw, 8);
    ValueOfNatToString(draw);
    NatToString(draw)
  }

  /** `randomId()` of the JavaScript handler, a number in [10000, 99999]. */
  function JsRandomId(u: UnitDraw): (n: int)
    ensures 10000 <= n <= 99999
  {
    assert 0.0 <= u * 90000.0 < 90000.0;
    (10000.0 + u * 90000.0).Floor
  }

  /** The decimal text of `randomId()` as it is interpolated into strings:
      five digits, hence no `-` and no `|`. */
  function JsShortId(u: UnitDraw): (id: string)
    ensures |id| == 5 && AllDigits(id)
    ensures '-' !in id && '|' !in id
    ensures ValueOf(id) == JsRandomId(u)
  {
    var n := JsRandomId(u);
    Pow10Values();
    NatToStringLength(n, 5);
    ValueOfNatToString(n);
    NatToString(n)
  }
}

=== FILE: text.dfy ===
/** String operations of Python's `str` and JavaScript's `String` that the
    link builders and dispatchers use, each defined on `seq<char>`. */
module Text {
  import opened Optional

  predicate StartsWith(s: string, p: string) {
    |p| <= |s| && s[..|p|] == p
  }

  /** Python truthiness of an optional string: `None` and `""` are false. */
  predicate Truthy(o: Option<string>) {
    o.Some? && o.value != ""
  }

  /** Python's `o or fallback` on an optional string. */
  function OrElse(o: Option<string>, fallback: string): (r: string)
    ensures Truthy(o) ==> r == o.value
    ensures !Truthy(o) ==> r == fallback
  {
    if Truthy(o) then o.value else fallback
  }

  /** `s.replace(from, to)` for single characters. */
  function ReplaceChar(s: string, from: char, to: char): (r: string)
    ensures |r| == |s|
    ensures forall i :: 0 <= i < |s| ==> r[i] == (if s[i] == from then to else s[i])
  {
    if s == [] then [] else [if s[0] == from then to else s[0]] + ReplaceChar(s[1..], from, to)
  }

  /** `s.replace(c, '')`: every occurrence of `c` deleted, order kept. */
  function DeleteChar(s: string, c: char): (r: string)
    ensures c !in r
    ensures forall x :: x != c ==> (x in r <==> x in s)
    ensures |r| == |s| - multiset(s)[c]
    ensures c !in s ==> r == s
  {
    if s == [] then []
    else
      assert s == [s[0]] + s[1..];
      if s[0] == c then DeleteChar(s[1..], c)
      else [s[0]] + DeleteChar(s[1..], c)
  }

  /** Deleting distributes over concatenation: what is kept of each part
      is kept, in order. */
  lemma {:induction false} DeleteCharAppend(a: string, b: string, c: char)
    ensures DeleteChar(a + b, c) == DeleteChar(a, c) + DeleteChar(b, c)
  {
    if a == [] {
      assert a + b == b;
    } else {
      assert (a + b)[0] == a[0];
      assert (a + b)[1..] == a[1..] + b;
      DeleteCharAppend(a[1..], b, c);
    }
  }

  /** `s.replace(p, '')` for a non-empty `p`: occurrences of `p` are found
      left to right without overlap and deleted. */
  function RemoveAll(s: string, p: string): (r: string)
    requires |p| > 0
    ensures |r| <= |s|
    ensures p[0] !in s ==> r == s
    decreases |s|
  {
    if |s| == 0 then s
    else if StartsWith(s, p) then RemoveAll(s[|p|..], p)
    else [s[0]] + RemoveAll(s[1..], p)
  }

  /** `s.split(c)[0]`: the part of `s` before the first `c`, or all of `s`. */
  function TakeBefore(s: string, c: char): (r: string)
    ensures c !in r
    ensures StartsWith(s, r)
    ensures |r| < |s| ==> s[|r|] == c
    ensures c !in s ==> r == s
  {
    if s == [] || s[0] == c then [] else [s[0]] + TakeBefore(s[1..], c)
  }

  /** Index of the last `c` in `s`, if any. */
  function LastIndexOf(s: string, c: char): (r: Option<nat>)
    ensures r.None? <==> c !in s
    ensures r.Some? ==> r.value < |s| && s[r.value] == c
    ensures r.Some? ==> forall j :: r.value < j < |s| ==> s[j] != c
  {
    if |s| == 0 then None
    else if s[|s| - 1] == c then Some(|s| - 1)
    else LastIndexOf(s[..|s| - 1], c)
  }

  /** Python's `s.rsplit(c, 1)` when it yields two parts: the text before
      and after the last `c`; `None` when `c` does not occur. */
  function SplitLast(s: string, c: char): (r: Option<(string, string)>)
    ensures r.None? <==> c !in s
    ensures r.Some? ==> s == r.value.0 + [c] + r.value.1 && c !in r.value.1
  {
    match LastIndexOf(s, c)
    case None => None
    case Some(k) =>
      assert s == s[..k] + [c] + s[k + 1..];
      Some((s[..k], s[k + 1..]))
  }

  /** Splitting at the last `c` recovers any tail free of `c`, whatever
      precedes it. */
  lemma SplitLastOfJoin(head: string, c: char, tail: string)
    requires c !in tail
    ensures SplitLast(head + [c] + tail, c) == Some((head, tail))
  {
    var s := head + [c] + tail;
    var k := |head|;
    assert s[k] == c;
    forall j | k < j < |s| ensures s[j] != c {
      assert s[j] == tail[j - k - 1];
    }
    LastIndexIsUnique(s, c, k);
    assert s[..k] == head;
    assert s[k + 1..] == tail;
  }

  /** The part before the first `c` of a join is its head when the head
      has no `c`. */
  lemma {:induction false} TakeBeforeOfJoin(head: string, c: char, tail: string)
    ensures c !in head ==> TakeBefore(head + [c] + tail, c) == head
  {
    if head != [] && c !in head {
      assert (head + [c] + tail)[1..] == head[1..] + [c] + tail;
      TakeBeforeOfJoin(head[1..], c, tail);
    }
  }

  lemma LastIndexIsUnique(s: string, c: char, k: nat)
    requires k < |s| && s[k] == c
    requires forall j :: k < j < |s| ==> s[j] != c
    ensures LastIndexOf(s, c) == Some(k)
  {
    assert c in s;
  }

  /** A copy of `p` at the front is deleted and matching goes on after it. */
  lemma RemoveAllOccurrence(p: string, y: string)
    requires |p| > 0
    ensures RemoveAll(p + y, p) == RemoveAll(y, p)
  {
    var s := p + y;
    assert StartsWith(s, p);
    assert s[|p|..] == y;
  }

  /** Text that cannot start a copy of `p` is kept as it is, and matching
      goes on after it. */
  lemma {:induction false} RemoveAllSkips(x: string, y: string, p: string)
    requires |p| > 0 && p[0] !in x
    ensures RemoveAll(x + y, p) == x + RemoveAll(y, p)
  {
    if x == [] {
      assert x + y == y;
    } else {
      var s := x + y;
      assert s[0] == x[0] && s[0] != p[0];
      assert !StartsWith(s, p);
      assert s[1..] == x[1..] + y;
      RemoveAllSkips(x[1..], y, p);
    }
  }

  /** A character that does not start a full copy of `p`, even one equal
      to `p[0]`, is kept and matching resumes right after it. */
  lemma RemoveAllKeepsPartialCopy(c: char, y: string, p: string)
    requires |p| > 0 && !StartsWith([c] + y, p)
    ensures RemoveAll([c] + y, p) == [c] + RemoveAll(y, p)
  {
    assert ([c] + y)[1..] == y;
  }

  /** A near-copy of the prefix survives: in `share_sha12` only the full
      `share_` is deleted. */
  lemma RemoveAllPartialExample()
    ensures RemoveAll("share_sha12", "share_") == "sha12"
  {
    RemoveAllOccurrence("share_", "sha12");
    assert "share_" + "sha12" == "share_sha12";
    assert !StartsWith("sha12", "share_");
    RemoveAllKeepsPartialCopy('s', "ha12", "share_");
    assert ['s'] + "ha12" == "sha12";
    RemoveAllSkips("ha12", [], "share_");
    assert "ha12" + [] == "ha12";
  }

  /** Deleting a prefix-marker from a string that cannot contain its first
      character leaves the string as it was after the marker. */
  lemma RemoveAllAfterMarker(p: string, rest: string)
    requires |p| > 0 && p[0] !in rest
    ensures RemoveAll(p + rest, p) == rest
  {
    RemoveAllOccurrence(p, rest);
    RemoveAllSkips(rest, [], p);
    assert rest + [] == rest;
  }

  /** `p.join(xs)`. */
  function JoinWith(xs: seq<string>, p: string): string {
    if |xs| == 0 then [] else if |xs| == 1 then xs[0] else xs[0] + p + JoinWith(xs[1..], p)
  }

  /** `''.join(xs)`. */
  function Concat(xs: seq<string>): string {
    if |xs| == 0 then [] else xs[0] + Concat(xs[1..])
  }

  /** Every copy is deleted, not only the first: for pieces that cannot
      start a copy of `p`, `p.join(xs).replace(p, '')` is `''.join(xs)`. */
  lemma {:induction false} RemoveAllOfJoin(xs: seq<string>, p: string)
    requires |p| > 0
    requires forall i :: 0 <= i < |xs| ==> p[0] !in xs[i]
    ensures RemoveAll(JoinWith(xs, p), p) == Concat(xs)
  {
    if |xs| == 1 {
      RemoveAllSkips(xs[0], [], p);
      assert xs[0] + [] == xs[0];
      assert Concat(xs) == xs[0] + Concat([]);
    } else if |xs| > 1 {
      var rest := JoinWith(xs[1..], p);
      assert JoinWith(xs, p) == xs[0] + (p + rest);
      RemoveAllSkips(xs[0], p + rest, p);
      RemoveAllOccurrence(p, rest);
      RemoveAllOfJoin(xs[1..], p);
    }
  }
}

=== FILE: webhook_js.dfy ===
/** The JavaScript webhook `handler`: the same upload flow as the Python
    webhook with a five-digit id, a `/dl/` link, no `ok` checks on the Bot
    API answers, and only part of the work inside its `try`. Each `fetch`
    is an input result: it rejected, or it resolved (the forward's body then
    may not be JSON, or may lack `result`). */
module WebhookJs {
  import opened Optional
  import opened Text
  import opened Decimal
  import opened ShortId
  import opened Links

  datatype JsFile = JsFile(fileId: string, fileName: Option<string>)

  datatype JsMessage = JsMessage(
    chatId: int,
    messageId: int,
    text: Option<string>,
    document: Option<JsFile>,
    video: Option<JsFile>,
    audio: Option<JsFile>,
    photo: seq<JsFile>)

  datatype JsRequest = JsRequest(httpMethod: string, host: string, message: Option<JsMessage>)

  datatype Fetch = Rejected | Resolved

  /** `fwdJson.result`, when present, and its `message_id`. */
  datatype ForwardReply = ForwardRejected | BodyNotJson | ForwardBody(result: Option<Option<int>>)

  datatype JsNet = JsNet(greeting: Fetch, forward: ForwardReply, mapping: Fetch, reply: Fetch)

  datatype JsCall =
    | SendGreeting(chatId: int)
    | ForwardMessage(fromChatId: int, messageId: int)
    | SendMapping(text: string, replyTo: string)
    | SendLink(chatId: int, fileName: string, link: string)

  /** A response, or a rejection outside the `try` that the handler does
      not turn into a response. */
  datatype JsOutcome = Respond(status: int, body: string) | Unhandled

  datatype JsResult = JsResult(outcome: JsOutcome, calls: seq<JsCall>)

  const ServerError := Respond(500, "Server error")

  /** `message.document || message.video || message.audio || null`: photos
      are not considered. */
  function SelectFile(m: JsMessage): (r: Option<JsFile>)
    ensures r.None? <==> m.document.None? && m.video.None? && m.audio.None?
    ensures m.document.Some? ==> r == m.document
    ensures m.document.None? && m.video.Some? ==> r == m.video
    ensures m.document.None? && m.video.None? ==> r == m.audio
  {
    if m.document.Some? then m.document else if m.video.Some? then m.video else m.audio
  }

  /** `` `${shortId}|${fileId}|${fileName}` ``: the short id is the first
      field. */
  function MappingText(shortId: string, fileId: string, fileName: string): (t: string)
    ensures '|' !in shortId ==> TakeBefore(t, '|') == shortId
    ensures |t| == |shortId| + |fileId| + |fileName| + 2
  {
    var tail := fileId + "|" + fileName;
    var t := shortId + "|" + tail;
    TakeBeforeOfJoin(shortId, '|', tail);
    assert t == shortId + ['|'] + tail;
    t
  }

  /** The fields can be recovered from the line: after the short id comes
      exactly `fileId|fileName`, and when the name has no `|` a split at the
      last `|` gives `shortId|fileId` and the name. No reader in these files
      consumes this three-field line. */
  lemma MappingTextFields(shortId: string, fileId: string, fileName: string)
    requires '|' !in shortId
    ensures var t := MappingText(shortId, fileId, fileName);
            && TakeBefore(t, '|') == shortId
            && t[|shortId| + 1..] == fileId + "|" + fileName
            && ('|' !in fileName ==> SplitLast(t, '|') == Some((shortId + "|" + fileId, fileName)))
  {
    var t := MappingText(shortId, fileId, fileName);
    assert t == (shortId + "|" + fileId) + ['|'] + fileName;
    assert t[|shortId| + 1..] == fileId + "|" + fileName;
    if '|' !in fileName {
      SplitLastOfJoin(shortId + "|" + fileId, '|', fileName);
    }
  }

  /** How `reply_to_message_id` is sent: the number, or the text
      `undefined` when the forward's result has no `message_id`. */
  function ReplyTarget(messageId: Option<int>): (r: string)
    ensures |r| >= 1
    ensures r == "undefined" <==> messageId.None?
    // a present id is sent as text that reads back as that id
    ensures messageId.Some? && messageId.value >= 0 ==> AllDigits(r) && ValueOf(r) == messageId.value
    ensures messageId.Some? && messageId.value < 0 ==>
      r[0] == '-' && AllDigits(r[1..]) && ValueOf(r[1..]) == -messageId.value
  {
    match messageId
    case Some(n) =>
      if n >= 0 then
        ValueOfNatToString(n);
        IntToString(n)
      else
        ValueOfNatToString(-n);
        assert IntToString(n)[1..] == NatToString(-n);
        IntToString(n)
    case None => "undefined"
  }

  /** `BASE_URL || \`https://${req.headers.host}\`` */
  function Base(baseUrl: string, host: string): (r: string)
    ensures baseUrl != "" ==> r == baseUrl
    ensures baseUrl == "" ==> r == "https://" + host
  {
    if baseUrl != "" then baseUrl else "https://" + host
  }

  /** What the `try` does once file `f` is chosen: the forward; a rejected
      forward, a body that is not JSON or one without `result` ends in 500;
      otherwise the mapping is posted as a reply to the forwarded message,
      a rejected mapping ends in 500, and after it the link message is
      sent and the answer is "ok" unless that last fetch rejected. */
  predicate UploadOutcome(r: JsResult, baseUrl: string, req: JsRequest, m: JsMessage, f: JsFile, u: UnitDraw, net: JsNet)
  {
    var forward := ForwardMessage(m.chatId, m.messageId);
    var fileName := OrElse(f.fileName, "file");
    && |r.calls| >= 1 && r.calls[0] == forward
    && (!(net.forward.ForwardBody? && net.forward.result.Some?) ==> r == JsResult(ServerError, [forward]))
    && (net.forward.ForwardBody? && net.forward.result.Some? ==>
          && |r.calls| >= 2
          && r.calls[1] == SendMapping(MappingText(JsShortId(u), f.fileId, fileName), ReplyTarget(net.forward.result.value))
          && (net.mapping.Rejected? ==> |r.calls| == 2 && r.outcome == ServerError)
          && (net.mapping.Resolved? ==>
                && |r.calls| == 3
                && r.calls[2] == SendLink(m.chatId, fileName, JsDownloadLink(Base(baseUrl, req.host), fileName, JsShortId(u)))
                && (net.reply.Rejected? ==> r.outcome == ServerError)
                && (net.reply.Resolved? ==> r.outcome == Respond(200, "ok"))))
  }

  /** The part inside the `try`, from the forward on. */
  function Upload(baseUrl: string, req: JsRequest, m: JsMessage, f: JsFile, u: UnitDraw, net: JsNet): (r: JsResult)
    ensures |r.calls| >= 1 && r.calls[0] == ForwardMessage(m.chatId, m.messageId)
    ensures r.outcome in {ServerError, Respond(200, "ok")}
    ensures |r.calls| >= 2 ==>
      && net.forward.ForwardBody? && net.forward.result.Some?
      && r.calls[1].SendMapping? && r.calls[1].replyTo == ReplyTarget(net.forward.result.value)
      && TakeBefore(r.calls[1].text, '|') == JsShortId(u)
    ensures r.outcome == Respond(200, "ok") ==>
      && |r.calls| == 3 && r.calls[2].SendLink?
      && r.calls[2].fileName == OrElse(f.fileName, "file")
      && SplitLast(r.calls[2].link, '-').Some?
      && SplitLast(r.calls[2].link, '-').value.1 == JsShortId(u)
    ensures |r.calls| <= 3
    ensures UploadOutcome(r, baseUrl, req, m, f, u, net)
  {
    var forward := ForwardMessage(m.chatId, m.messageId);
    match net.forward
    case ForwardRejected => JsResult(ServerError, [forward])
    case BodyNotJson => JsResult(ServerError, [forward])
    case ForwardBody(None) => JsResult(ServerError, [forward])   // `fwdJson.result.message_id` throws
    case ForwardBody(Some(messageId)) =>
      var fileName := OrElse(f.fileName, "file");
      var shortId := JsShortId(u);
      var mapping := SendMapping(MappingText(shortId, f.fileId, fileName), ReplyTarget(messageId));
      if net.mapping.Rejected? then JsResult(ServerError, [forward, mapping])
      else
        var link := JsDownloadLink(Base(baseUrl, req.host), fileName, shortId);
        JsResult(if net.reply.Rejected? then ServerError else Respond(200, "ok"),
                 [forward, mapping, SendLink(m.chatId, fileName, link)])
  }

  predicate IsStart(m: JsMessage)
    // an absent text and an empty one never start a command
    ensures IsStart(m) <==> m.text.Some? && |m.text.value| >= 6 && m.text.value[..6] == "/start"
  {
    Truthy(m.text) && StartsWith(m.text.value, "/start")
  }

  /** `handler`. `baseUrl` is `BASE_URL` (empty when unset) and `u` the
      value `Math.random()` returns. */
  function Handler(baseUrl: string, req: JsRequest, u: UnitDraw, net: JsNet): (r: JsResult)
    ensures req.httpMethod != "POST" ==> r == JsResult(Respond(405, "Method not allowed"), [])
    ensures r.outcome.Respond? ==> r.outcome.status in {200, 405, 500}
    ensures r.outcome == Respond(200, "No message") <==> req.httpMethod == "POST" && req.message.None?
    ensures req.httpMethod == "POST" && req.message.None? ==> r == JsResult(Respond(200, "No message"), [])
    // /start is handled before the file check and never forwards
    ensures req.httpMethod == "POST" && req.message.Some? && IsStart(req.message.value) ==>
      r.calls == [SendGreeting(req.message.value.chatId)]
    ensures r.outcome == Respond(200, "No file found") <==>
      req.httpMethod == "POST" && req.message.Some? && !IsStart(req.message.value)
      && SelectFile(req.message.value).None?
    ensures r.outcome == Respond(200, "No file found") ==> r.calls == []
    // only the greeting can fail outside the try
    ensures r.outcome.Unhandled? ==> net.greeting.Rejected? && r.calls == [SendGreeting(req.message.value.chatId)]
    ensures r.outcome == Respond(200, "ok") && |r.calls| > 1 ==>
      && |r.calls| == 3 && r.calls[0].ForwardMessage? && r.calls[1].SendMapping? && r.calls[2].SendLink?
      && SplitLast(r.calls[2].link, '-').Some?
      && TakeBefore(r.calls[1].text, '|') == SplitLast(r.calls[2].link, '-').value.1
    // every branch of a POST with a message, forwards
    ensures req.httpMethod == "POST" && req.message.Some? ==>
      var m := req.message.value;
      && (IsStart(m) && net.greeting.Rejected? ==> r.outcome == Unhandled)
      && (IsStart(m) && net.greeting.Resolved? ==> r.outcome == Respond(200, "ok"))
      && (!IsStart(m) && SelectFile(m).Some? ==> UploadOutcome(r, baseUrl, req, m, SelectFile(m).value, u, net))
  {
    if req.httpMethod != "POST" then JsResult(Respond(405, "Method not allowed"), [])
    else if req.message.None? then JsResult(Respond(200, "No message"), [])
    else
      var m := req.message.value;
      if IsStart(m) then
        JsResult(if net.greeting.Rejected? then Unhandled else Respond(200, "ok"), [SendGreeting(m.chatId)])
      else
        match SelectFile(m)
        case None => JsResult(Respond(200, "No file found"), [])
        case Some(f) => Upload(baseUrl, req, m, f, u, net)
  }

  /** A message whose only attachment is a photo is turned away without a
      forward, whatever its photos. */
  lemma PhotoOnlyIsNoFile(baseUrl: string, req: JsRequest, u: UnitDraw, net: JsNet)
    requires req.httpMethod == "POST" && req.message.Some?
    requires var m := req.message.value;
             m.document.None? && m.video.None? && m.audio.None? && |m.photo| > 0 && !Truthy(m.text)
    ensures Handler(baseUrl, req, u, net) == JsResult(Respond(200, "No file found"), [])
  {
  }
}

=== FILE: webhook_py.dfy ===
/** The Python webhook's `do_POST`: a Telegram update carrying a file is
    forwarded to the storage channel, a mapping line is posted as a reply to
    the forwarded message, and the user is sent a permanent link. Each Bot
    API call is an input result: it raised, or it returned a JSON body with
    `ok` and possibly `result.message_id`. Every raised exception, wherever
    it happens, ends in status 500. */
module WebhookPy {
  import opened Optional
  import opened Text
  import opened Decimal
  import opened ShortId
  import opened Links

  datatype TgFile = TgFile(fileId: string, fileName: Option<string>, fileUniqueId: Option<string>, fileSize: Option<int>)

  datatype Message = Message(
    chatId: Option<int>,        // `message['chat']['id']`; missing raises
    messageId: int,
    text: Option<string>,
    document: Option<TgFile>,
    video: Option<TgFile>,
    audio: Option<TgFile>,
    photo: seq<TgFile>)         // a missing photo list reads as empty

  datatype Update = Update(message: Option<Message>)

  datatype ApiResult = Raised | Answered(ok: bool, resultMessageId: Option<int>)

  /** The results of the Bot API calls a run may make, in order of use.
      `notice` is the one failure notice a run may send. */
  datatype Net = Net(greeting: ApiResult, notice: ApiResult, forward: ApiResult, mapping: ApiResult, success: ApiResult)

  datatype Notice = Greeting | AskForFile | StoreFailed | LinkFailed | LinkReady(fileName: string, link: string)

  datatype Call =
    | SendMessage(chatId: int, notice: Notice)
    | ForwardMessage(fromChatId: int, messageId: int)
    | SendMapping(text: string, replyTo: int)

  datatype Response = Response(status: int, body: string)

  datatype PostResult = PostResult(response: Response, calls: seq<Call>)

  const ServerError := Response(500, "Server error")

  /** `file_size` as `max` compares it, a missing size counting as 0. */
  function SizeKey(f: TgFile): int {
    f.fileSize.GetOr(0)
  }

  /** `max(photos, key=size)`: the index of the FIRST photo of largest size. */
  function LargestPhoto(ps: seq<TgFile>): (k: nat)
    requires |ps| > 0
    ensures k < |ps|
    ensures forall j :: 0 <= j < |ps| ==> SizeKey(ps[j]) <= SizeKey(ps[k])
    ensures forall j :: 0 <= j < k ==> SizeKey(ps[j]) < SizeKey(ps[k])
  {
    if |ps| == 1 then 0
    else
      var k := LargestPhoto(ps[..|ps| - 1]);
      if SizeKey(ps[|ps| - 1]) > SizeKey(ps[k]) then |ps| - 1 else k
  }

  /** `document or video or audio or photo`, a photo list reduced to its
      largest element; `None` when the message has no file. */
  function SelectFile(m: Message): (r: Option<TgFile>)
    ensures r.None? <==> m.document.None? && m.video.None? && m.audio.None? && |m.photo| == 0
    ensures m.document.Some? ==> r == m.document
    ensures m.document.None? && m.video.Some? ==> r == m.video
    ensures m.document.None? && m.video.None? && m.audio.Some? ==> r == m.audio
    ensures m.document.None? && m.video.None? && m.audio.None? && |m.photo| > 0 ==>
      r.Some? && r.value in m.photo && forall p :: p in m.photo ==> SizeKey(p) <= SizeKey(r.value)
  {
    if m.document.Some? then m.document
    else if m.video.Some? then m.video
    else if m.audio.Some? then m.audio
    else if |m.photo| > 0 then Some(m.photo[LargestPhoto(m.photo)])
    else None
  }

  /** `file_name`: the file's own non-empty name, else its
      `file_unique_id` (even an empty one), else `file_<random id>`; then
      `.jpg` is appended when the MESSAGE has photos and the name has no
      dot, whichever file was chosen. */
  function FileName(f: TgFile, draw: PyDraw, messageHasPhoto: bool): (r: string)
    ensures var base := if Truthy(f.fileName) then f.fileName.value
                        else if f.fileUniqueId.Some? then f.fileUniqueId.value
                        else "file_" + PyShortId(draw);
            r == base || (r == base + ".jpg" && messageHasPhoto && '.' !in base)
    ensures messageHasPhoto ==> '.' in r
    ensures !messageHasPhoto && Truthy(f.fileName) ==> r == f.fileName.value
  {
    var base := if Truthy(f.fileName) then f.fileName.value
                else if f.fileUniqueId.Some? then f.fileUniqueId.value
                else "file_" + PyShortId(draw);
    if messageHasPhoto && '.' !in base then
      assert (base + ".jpg")[|base|] == '.';
      base + ".jpg"
    else base
  }

  const MapTag := "FILMZI_MAP:"

  /** The mapping line posted in the channel:
      `FILMZI_MAP:<short_id>|<file_id>|<file_name>|<channel_msg_id>`. */
  function MappingText(shortId: string, fileId: string, fileName: string, channelMsgId: int): (t: string)
    ensures StartsWith(t, MapTag)
  {
    var t := MapTag + (shortId + "|" + fileId + "|" + fileName) + "|" + IntToString(channelMsgId);
    assert t[..|MapTag|] == MapTag;
    t
  }

  /** The short id is the first field after the tag and the channel
      message id the last field, whatever the name and file id contain. */
  lemma MappingTextFields(shortId: string, fileId: string, fileName: string, channelMsgId: int)
    requires '|' !in shortId
    ensures var t := MappingText(shortId, fileId, fileName, channelMsgId);
            && TakeBefore(t[|MapTag|..], '|') == shortId
            && SplitLast(t, '|') == Some((MapTag + (shortId + "|" + fileId + "|" + fileName), IntToString(channelMsgId)))
  {
    var num := IntToString(channelMsgId);
    var fields := shortId + "|" + fileId + "|" + fileName;
    var t := MapTag + fields + "|" + num;
    assert t == MappingText(shortId, fileId, fileName, channelMsgId);
    var tail := fileId + "|" + fileName + "|" + num;
    assert t[|MapTag|..] == shortId + ['|'] + tail;
    TakeBeforeOfJoin(shortId, '|', tail);
    assert '|' !in num;
    SplitLastOfJoin(MapTag + fields, '|', num);
  }

  predicate IsStart(m: Message)
    // an absent text and an empty one never start a command
    ensures IsStart(m) <==> m.text.Some? && |m.text.value| >= 6 && m.text.value[..6] == "/start"
  {
    StartsWith(m.text.GetOr(""), "/start")
  }

  /** The mapping is posted only right after a successful forward, as a
      reply to the forwarded message. */
  ghost predicate MappingFollowsForward(calls: seq<Call>, net: Net) {
    forall i :: 0 <= i < |calls| && calls[i].SendMapping? ==>
      i == 1 && calls[0].ForwardMessage? && net.forward == Answered(true, Some(calls[i].replyTo))
  }

  /** The link is sent only right after a successful mapping, and both
      carry the same short id. */
  ghost predicate LinkFollowsMapping(calls: seq<Call>, net: Net, shortId: string) {
    forall i :: 0 <= i < |calls| && calls[i].SendMessage? && calls[i].notice.LinkReady? ==>
      i == 2 && calls[1].SendMapping? && net.mapping.Answered? && net.mapping.ok
      && StartsWith(calls[1].text, MapTag)
      && TakeBefore(calls[1].text[|MapTag|..], '|') == shortId
      && SplitLast(calls[i].notice.link, '-').Some?
      && SplitLast(calls[i].notice.link, '-').value.1 == shortId
  }

  /** What follows a forward the channel accepted as message `channelMsgId`:
      the mapping line is posted as a reply to it; a raised mapping call
      ends the run in 500; a refused one is reported to the user and
      answered "Mapping failed"; an accepted one is followed by the link
      message and answered "ok" (500 when that last message raised). */
  predicate PublishOutcome(r: PostResult, vercelUrl: Option<string>, forward: Call, chat: int, fileId: string,
                           name: string, shortId: string, channelMsgId: int, net: Net)
  {
    && 2 <= |r.calls| <= 3 && r.calls[0] == forward
    && r.calls[1] == SendMapping(MappingText(shortId, fileId, name, channelMsgId), channelMsgId)
    && (net.mapping.Raised? ==> |r.calls| == 2 && r.response == ServerError)
    && (net.mapping.Answered? && !net.mapping.ok ==>
          && |r.calls| == 3 && r.calls[2] == SendMessage(chat, LinkFailed)
          && (net.notice.Raised? ==> r.response == ServerError)
          && (!net.notice.Raised? ==> r.response == Response(200, "Mapping failed")))
    && (net.mapping.Answered? && net.mapping.ok ==>
          && |r.calls| == 3
          && r.calls[2] == SendMessage(chat, LinkReady(name, WebhookDownloadLink(WebhookDomain(vercelUrl), name, shortId)))
          && (net.success.Raised? ==> r.response == ServerError)
          && (!net.success.Raised? ==> r.response == Response(200, "ok")))
  }

  /** What follows the choice of file `f`: the forward; a raised forward
      ends in 500; a refused one is reported and answered "Forward failed";
      an accepted one without `result.message_id` ends in 500; an accepted
      one with it goes on as `PublishOutcome` says, under the generated
      name and short id. */
  predicate UploadOutcome(r: PostResult, vercelUrl: Option<string>, m: Message, chat: int, f: TgFile,
                          nameDraw: PyDraw, idDraw: PyDraw, net: Net)
  {
    var forward := ForwardMessage(chat, m.messageId);
    && |r.calls| >= 1 && r.calls[0] == forward
    && (net.forward.Raised? ==> r == PostResult(ServerError, [forward]))
    && (net.forward.Answered? && !net.forward.ok ==>
          && r.calls == [forward, SendMessage(chat, StoreFailed)]
          && (net.notice.Raised? ==> r.response == ServerError)
          && (!net.notice.Raised? ==> r.response == Response(200, "Forward failed")))
    && (net.forward == Answered(true, None) ==> r == PostResult(ServerError, [forward]))
    && (net.forward.Answered? && net.forward.ok && net.forward.resultMessageId.Some? ==>
          PublishOutcome(r, vercelUrl, forward, chat, f.fileId, FileName(f, nameDraw, |m.photo| > 0),
                         PyShortId(idDraw), net.forward.resultMessageId.value, net))
  }

  /** The upload part of `do_POST`, from the forward on. */
  function Upload(vercelUrl: Option<string>, m: Message, chat: int, f: TgFile,
                  nameDraw: PyDraw, idDraw: PyDraw, net: Net): (r: PostResult)
    ensures |r.calls| >= 1 && r.calls[0] == ForwardMessage(chat, m.messageId)
    ensures r.response.status in {200, 500}
    ensures r.response.body !in {"No message", "No file found"}
    ensures MappingFollowsForward(r.calls, net)
    ensures LinkFollowsMapping(r.calls, net, PyShortId(idDraw))
    ensures r.response.body == "Forward failed" ==>
      net.forward.Answered? && !net.forward.ok && forall i :: 0 <= i < |r.calls| ==> !r.calls[i].SendMapping?
    ensures r.response.body == "Mapping failed" ==> net.mapping.Answered? && !net.mapping.ok
    ensures r.response.body == "ok" ==> |r.calls| == 3 && r.calls[2].SendMessage? && r.calls[2].notice.LinkReady?
    ensures UploadOutcome(r, vercelUrl, m, chat, f, nameDraw, idDraw, net)
  {
    var name := FileName(f, nameDraw, |m.photo| > 0);
    var shortId := PyShortId(idDraw);
    var forward := ForwardMessage(chat, m.messageId);
    match net.forward
    case Raised => PostResult(ServerError, [forward])
    case Answered(false, _) =>
      PostResult(if net.notice.Raised? then ServerError else Response(200, "Forward failed"),
                 [forward, SendMessage(chat, StoreFailed)])
    case Answered(true, None) => PostResult(ServerError, [forward])   // no result.message_id
    case Answered(true, Some(channelMsgId)) =>
      Publish(vercelUrl, forward, chat, f.fileId, name, shortId, channelMsgId, net)
  }

  /** After a successful forward: post the mapping, then send the link. */
  function Publish(vercelUrl: Option<string>, forward: Call, chat: int, fileId: string, name: string,
                   shortId: string, channelMsgId: int, net: Net): (r: PostResult)
    requires forward.ForwardMessage? && '|' !in shortId && '-' !in shortId
    ensures 2 <= |r.calls| <= 3 && r.calls[0] == forward
    ensures r.calls[1] == SendMapping(MappingText(shortId, fileId, name, channelMsgId), channelMsgId)
    ensures r.response.status in {200, 500}
    ensures r.response.body !in {"No message", "No file found", "Forward failed"}
    ensures LinkFollowsMapping(r.calls, net, shortId)
    ensures r.response.body == "Mapping failed" ==> net.mapping.Answered? && !net.mapping.ok
    ensures r.response.body == "ok" ==> |r.calls| == 3 && r.calls[2].SendMessage? && r.calls[2].notice.LinkReady?
    ensures PublishOutcome(r, vercelUrl, forward, chat, fileId, name, shortId, channelMsgId, net)
  {
    var mapping := SendMapping(MappingText(shortId, fileId, name, channelMsgId), channelMsgId);
    match net.mapping
    case Raised => PostResult(ServerError, [forward, mapping])
    case Answered(false, _) =>
      PostResult(if net.notice.Raised? then ServerError else Response(200, "Mapping failed"),
                 [forward, mapping, SendMessage(chat, LinkFailed)])
    case Answered(true, _) =>
      SendLink(vercelUrl, forward, chat, fileId, name, shortId, channelMsgId, net)
  }

  /** A forward, a mapping and then the link: the link is the only
      `LinkReady` message and it follows the mapping. */
  lemma LinkLast(calls: seq<Call>, net: Net, shortId: string)
    requires |calls| == 3 && calls[0].ForwardMessage? && calls[1].SendMapping?
    requires net.mapping.Answered? && net.mapping.ok
    requires StartsWith(calls[1].text, MapTag) && TakeBefore(calls[1].text[|MapTag|..], '|') == shortId
    requires calls[2].SendMessage? && calls[2].notice.LinkReady?
    requires SplitLast(calls[2].notice.link, '-').Some? && SplitLast(calls[2].notice.link, '-').value.1 == shortId
    ensures LinkFollowsMapping(calls, net, shortId)
  {
  }

  /** After a successful mapping: send the user the download link, which
      carries the short id the mapping line starts with. */
  function SendLink(vercelUrl: Option<string>, forward: Call, chat: int, fileId: string, name: string,
                    shortId: string, channelMsgId: int, net: Net): (r: PostResult)
    requires forward.ForwardMessage? && '|' !in shortId && '-' !in shortId
    requires net.mapping.Answered? && net.mapping.ok
    ensures |r.calls| == 3 && r.calls[0] == forward
    ensures r.calls[1] == SendMapping(MappingText(shortId, fileId, name, channelMsgId), channelMsgId)
    ensures r.calls[2] == SendMessage(chat, LinkReady(name, WebhookDownloadLink(WebhookDomain(vercelUrl), name, shortId)))
    ensures r.response in {Response(200, "ok"), ServerError}
    ensures r.response == Response(200, "ok") <==> !net.success.Raised?
    ensures LinkFollowsMapping(r.calls, net, shortId)
  {
    var link := WebhookDownloadLink(WebhookDomain(vercelUrl), name, shortId);
    var text := MappingText(shortId, fileId, name, channelMsgId);
    MappingTextFields(shortId, fileId, name, channelMsgId);
    var calls := [forward, SendMapping(text, channelMsgId), SendMessage(chat, LinkReady(name, link))];
    LinkLast(calls, net, shortId);
    PostResult(if net.success.Raised? then ServerError else Response(200, "ok"), calls)
  }

  /** `do_POST`. `body` is the parsed request (`None` when it is not JSON),
      `vercelUrl` the environment variable, `nameDraw` the `random_id()`
      evaluated for the fallback name and `idDraw` the one for the short id. */
  function DoPost(vercelUrl: Option<string>, body: Option<Update>, nameDraw: PyDraw, idDraw: PyDraw, net: Net): (r: PostResult)
    ensures r.response.status in {200, 500}
    ensures body.None? ==> r == PostResult(ServerError, [])
    ensures r.response.body == "No message" <==> body.Some? && body.value.message.None?
    ensures body.Some? && body.value.message.None? ==> r == PostResult(Response(200, "No message"), [])
    // /start is answered before any file handling and never forwards
    ensures body.Some? && body.value.message.Some? && body.value.message.value.chatId.Some? && IsStart(body.value.message.value) ==>
      r.calls == [SendMessage(body.value.message.value.chatId.value, Greeting)]
    ensures r.response.body == "No file found" ==> |r.calls| == 1 && r.calls[0].SendMessage? && r.calls[0].notice == AskForFile
    ensures MappingFollowsForward(r.calls, net)
    ensures LinkFollowsMapping(r.calls, net, PyShortId(idDraw))
    ensures r.response.body == "Forward failed" ==> net.forward.Answered? && !net.forward.ok
    ensures r.response.body == "Mapping failed" ==> net.mapping.Answered? && !net.mapping.ok
    // every branch of a message, forwards
    ensures body.Some? && body.value.message.Some? ==>
      var m := body.value.message.value;
      && (m.chatId.None? ==> r == PostResult(ServerError, []))
      && (m.chatId.Some? && IsStart(m) ==>
            && (net.greeting.Raised? ==> r.response == ServerError)
            && (!net.greeting.Raised? ==> r.response == Response(200, "ok")))
      && (m.chatId.Some? && !IsStart(m) && SelectFile(m).None? ==>
            && r.calls == [SendMessage(m.chatId.value, AskForFile)]
            && (net.notice.Raised? ==> r.response == ServerError)
            && (!net.notice.Raised? ==> r.response == Response(200, "No file found")))
      && (m.chatId.Some? && !IsStart(m) && SelectFile(m).Some? ==>
            UploadOutcome(r, vercelUrl, m, m.chatId.value, SelectFile(m).value, nameDraw, idDraw, net))
  {
    if body.None? then PostResult(ServerError, [])
    else if body.value.message.None? then PostResult(Response(200, "No message"), [])
    else
      var m := body.value.message.value;
      if m.chatId.None? then PostResult(ServerError, [])
      else
        var chat := m.chatId.value;
        if IsStart(m) then
          PostResult(if net.greeting.Raised? then ServerError else Response(200, "ok"), [SendMessage(chat, Greeting)])
        else
          match SelectFile(m)
          case None =>
            PostResult(if net.notice.Raised? then ServerError else Response(200, "No file found"),
                       [SendMessage(chat, AskForFile)])
          case Some(f) => Upload(vercelUrl, m, chat, f, nameDraw, idDraw, net)
  }
}
